=== FILE: README.md ===
# Modal editor of tui-logue, modelled in Dafny

tui-logue is a terminal journal. Its editing pane (`src/app/ui/editor/mod.rs`)
holds two text widgets. One is a one-line **entry box** for quick notes. The
other is the **content area**, which holds the text of the current journal
entry. The content area has a Vim-like modal controller with three modes:
Normal, Insert and Visual. This project models that controller as pure
functions over an immutable `Editor` record. It covers:

- the mode state machine (`set_editor_mode`) and how Visual mode is tied to the widget's selection flag;
- focus between the entry box and the content area: BackTab, `set_active`, and the prioritized input path;
- the three-tier key dispatch of `handle_input`:
  - default navigation;
  - the Visual-only commands `d`/`y`/`c`;
  - the Vim table;
- Shift+Enter in the entry box, which appends an `HH:MM note` line;
- loading an entry (`set_current_entry`) and replacing content (`set_entry_content`);
- the `is_dirty` / `has_unsaved` bookkeeping (`refresh_has_unsaved`);
- the bridge to the operating-system clipboard (`exec_os_clipboard`).

## How the model is built

- `results.dfy` (`Results`): `Option` and `Result`. There are two error kinds:
  - clipboard access failed;
  - the widget refused a paste.
- `text.dfy` (`Text`): Rust's `str::lines`, `join("\n")`, `str::trim` and
  `char::is_whitespace`. It proves that joining the lines of a text gives the
  text back exactly when the text is *canonical*. A canonical text has no
  trailing line feed and no carriage return before a line feed.
- `clock.dfy` (`Clock`): the time of day is an input (`Time(hour, minute)`).
  `FormatHM` is chrono's `%H:%M` with zero padding. `ParseHM` reads the stamp
  back, and the two are proved to be inverses.
- `keys.dfy` (`Keys`): key codes, the modifier set and `is_default_navigation`.
- `widget.dfy` (`Widget`): `tui_textarea::TextArea` as an abstract buffer. It has:
  - `lines`;
  - a `selecting` flag;
  - the yank text;
  - an opaque `View` (cursor, viewport, undo history).

  Every library call whose effect the editor does not control is a field of a
  `TextLib` record of arbitrary total functions. Examples are key input, cut,
  paste, `insert_str`, undo and redo. Each call that reports success returns
  that `bool` too. Every property below holds for every `TextLib`, except
  `NavigationKeysKeepText`, which assumes the widget's navigation input only
  moves the cursor (see "## Left out"). The model's
  structure fixes only a few things:
  - `TextArea::new(vec![])` holds one empty line;
  - cursor motion and scrolling change only the `View`;
  - `copy` changes only the selection flag and the yank text;
  - starting or cancelling a selection sets only the selection flag.
- `clipboard.dfy` (`OsClipboard`): the `arboard` clipboard as a capability.
  Opening it, reading it and writing it can each fail.
- `store.dfy` (`Store`): the read-only snapshot of the application that the
  editor consults:
  - entries by `u32` id;
  - the current entry id;
  - the `sync_os_clipboard` setting.
- `editor.dfy` (`ModalEditor`): the `Editor` record, mode changes, activation,
  loading, the dirty bookkeeping and the clipboard bridge.
- `dispatch.dfy` (`KeyDispatch`): the prioritized path, the general path and
  the three dispatch tiers.
- `properties.dfy` (`EditorProperties`): lemmas that relate several operations.

Every handler returns `Step(editor, clipboard, result)`. In the source, `?`
returns early after earlier `&mut self` changes. So on the error path the
model keeps every change made before the failing call, exactly as the code
does.

### Behaviour kept exactly as the code has it

- Submit in the entry box is Shift+Enter (any modifier set that contains
  Shift). Plain Enter goes to the box like any other key.
- A blank note does not clear the entry box.
- `handle_input` sets `is_dirty` for pure cursor movement too.
- `D`, `C` and `x` always copy to the OS clipboard, whatever the sync setting.
  So with sync off, an unreachable clipboard still makes them fail after the
  edit.
- Visual `c` with sync on copies and does not cut.
- The Vim mode-entry keys and BackTab assign the mode directly. They do not
  cancel a selection. So Visual, BackTab, BackTab ends in Normal mode with the
  selection still active (`BackTabTwice`).
- `set_editor_mode` from Insert to Visual starts no selection.
- A clipboard error inside `handle_input` skips two steps: the Visual-mode exit
  check and the dirty recomputation (`FailedWriteAfterVisualCut`,
  `DeleteCharWithoutClipboard`). So `handle_input` returns `Handled` only when
  it succeeds.
- Typing into the entry box sets both `is_dirty` and `has_unsaved`, although
  the content area is unchanged.
- Submitting a note and `set_entry_content` build a fresh widget, just as loading
  an entry does. So both drop the undo history, the yank text and any selection.
- Loading goes through `str::lines`. So for a stored text that is not
  canonical, pressing a motion key makes the editor unsaved
  (`MovingAfterLoad`).

## Model

| member | source | states |
|---|---|---|
| ModalEditor.NewEditor | src/app/ui/editor/mod.rs:54-67 | A new editor is in Normal mode, unfocused and inactive, not dirty, with two empty boxes. |
| ModalEditor.SetEditorMode | src/app/ui/editor/mod.rs:381-393 | The requested mode always takes effect. Normal to Visual starts a selection. Visual to Normal or Insert cancels it. Both only start or cancel the selection, so the cursor, the text and the yank text stay. Every other pair leaves the buffer untouched. The other fields never change. |
| ModalEditor.SetActive | src/app/ui/editor/mod.rs:528-540 | Focus and activity both become the argument. Deactivating from Visual is exactly `set_editor_mode(Normal)` plus the two focus fields, so an inactive editor is never in Visual mode. Activating, or leaving a non-Visual mode, keeps mode and buffer. |
| ModalEditor.RefreshHasUnsaved | src/app/ui/editor/mod.rs:552-563 | The unsaved flag is recomputed from scratch. It is true exactly when the editor is dirty and the current entry exists with a stored text other than the joined buffer. A clean editor or a missing entry is never unsaved. |
| ModalEditor.SetCurrentEntry | src/app/ui/editor/mod.rs:84-110 | Mode becomes Normal. The entry box is emptied and loses focus. Both flags are cleared and no selection remains. The content area is a fresh widget built from the entry's `lines()`, or one empty line when the id is absent or unknown. Its cursor is moved to Bottom and then to End. |
| ModalEditor.SetEntryContent | src/app/ui/editor/mod.rs:565-574 | The content area becomes a fresh widget holding the lines of the given text, with its cursor moved to Bottom and then End, and the editor is dirty. It is unsaved exactly when the current entry's stored text differs from what those lines join to. Mode and focus are unchanged. |
| ModalEditor.ExecOsClipboard | src/app/ui/editor/mod.rs:576-612 | If the clipboard cannot be opened, the result is an error and nothing changes. Copy runs the widget's `copy` and pushes the resulting yank text; it keeps the text and the flags, and the write error is the only failure. For Copy and Cut, a successful write changes only the clipboard's text, to the yank text, and a failed write leaves the clipboard unchanged. Cut sets both flags when the widget cut succeeds, even if the write then fails. Paste of empty text is Handled and changes nothing. A paste the widget rejects is a `PasteRejected` error and leaves the flags unchanged. A successful paste sets both flags. Mode and focus never change. |
| KeyDispatch.ClipboardShortcut | src/app/ui/editor/mod.rs:164-175 | Ctrl+x is Cut, Ctrl+c is Copy and Ctrl+v is Paste, each exactly under Control; no other key is a shortcut. |
| KeyDispatch.SubmitEntry | src/app/ui/editor/mod.rs:119-147 | A whitespace-only note changes nothing. Otherwise the entry box is emptied. The content area becomes a fresh widget holding the unchanged existing lines plus exactly one line `HH:MM note`, with its cursor moved to Bottom and then End. Both flags become true. |
| KeyDispatch.HandleInputPrioritized | src/app/ui/editor/mod.rs:112-193 | The result is NotFound exactly when the content area has focus outside Insert mode, and then nothing changes. With the entry box focused, every key is Handled. Shift+Enter submits; every other key keeps the buffer, and a change the box reports sets both flags. In Insert mode with sync on, Ctrl+x, Ctrl+c and Ctrl+v run the clipboard Cut, Copy and Paste, and they are the only source of errors. Any other key goes to the widget and leaves the entry box alone, and a change it reports marks the editor dirty and recomputes the unsaved flag. |
| KeyDispatch.HandleInputVisualOnly | src/app/ui/editor/mod.rs:241-279 | Any modifier, or any key other than `d`/`y`/`c`, returns `false` and changes nothing. `d` cuts the selection: through the widget without sync, through the clipboard Cut with sync. `y` copies (widget or clipboard Copy) and ends in Normal mode with the text unchanged. `c` cuts through the widget without sync, copies through the clipboard with sync, and ends in Insert mode. `d` keeps the mode. Without sync the OS clipboard is never used. |
| KeyDispatch.HandleVimMotions | src/app/ui/editor/mod.rs:281-374 | An unbound key is a no-op. A motion or scroll key makes exactly the cursor move or scroll of `VimMotion`, and it keeps the text, the selection, the mode and the clipboard. A mode-entry key makes exactly the moves and new line of `VimEnterInsert` and ends in Insert mode. `D` and `C` delete to the end of the line and `x` deletes the next character, then each copies: they succeed exactly when the clipboard opens and is writable, and then it holds the yank text. `p` pastes from the widget without sync and through the clipboard Paste with sync; `u` undoes and Ctrl+r redoes. Only `D`, `C`, `x` and a synced `p` can fail. |
| KeyDispatch.VimEdit | src/app/ui/editor/mod.rs:309-334 | `D` and `C` call the widget's delete-to-end-of-line, `x` its delete-next-character; nothing else in the editor changes. |
| KeyDispatch.VimCopyingEdit | src/app/ui/editor/mod.rs:309-334 | `D`/`C` delete to the end of the line and `x` deletes the next character through the widget, and then the selection is copied when the clipboard opens. The step succeeds exactly when the clipboard opens and is writable, and the clipboard then holds the yank text; otherwise the clipboard is unchanged. Only a successful `C` enters Insert mode, and the dirty flags never change. |
| KeyDispatch.VimPasteOrHistory | src/app/ui/editor/mod.rs:318-330 | `p` calls the widget's paste without sync and the clipboard Paste with sync; `u` calls undo and Ctrl+r redo, neither failing nor touching the clipboard; any other binding does nothing. The dirty flags are kept or both set. |
| KeyDispatch.VimMotion | src/app/ui/editor/mod.rs:285-308 | Each motion row requests its own cursor move: `h` Back, `j` Down, `k` Up, `l` Forward, `w` and `e` WordForward, `b` WordBack, `^` Head, `$` End. Each Ctrl row at lines 359-370 requests its own scroll: `d` HalfPageDown, `u` HalfPageUp, `f` PageDown, `b` PageUp. Only the view changes; any other binding changes nothing. |
| KeyDispatch.CursorRow | src/app/ui/editor/mod.rs:285-308 | Each unmodified motion key requests its own cursor move; only the view changes. |
| KeyDispatch.ScrollRow | src/app/ui/editor/mod.rs:359-370 | Each Control scroll key requests its own scroll; only the view changes. |
| KeyDispatch.VimEnterInsert | src/app/ui/editor/mod.rs:335-358 | `i a A o O I` set Insert mode directly. `i` changes nothing else. `a` moves Forward, `A` moves to End and `I` moves to Head, keeping the text and the selection flag. `o` moves to End and then inserts a new line. `O` moves to Head, inserts a new line, then moves Up. Any other binding changes nothing. |
| KeyDispatch.DispatchContentKey | src/app/ui/editor/mod.rs:218-228 | Navigation keys go to the widget. Outside Visual mode the Vim table decides. In Visual mode, an unmodified `d`/`y`/`c` goes to the Visual-only commands and ends as they do; a key with modifiers or other than `d`/`y`/`c` falls through to the Vim table. The dirty flags are kept or both set. |
| KeyDispatch.ExitVisualIfUnselected | src/app/ui/editor/mod.rs:230-233 | In Visual mode with no selection, the editor goes through `set_editor_mode(Normal)`. Afterwards Visual mode implies an active selection. Otherwise nothing changes. |
| KeyDispatch.HandleInput | src/app/ui/editor/mod.rs:195-239 | With no current entry, the key is Handled and nothing changes. BackTab flips the focus and forces Normal mode when the content area gains focus. With the entry box focused, other keys change nothing. A content key goes through `DispatchContentKey`: an error from it is passed on with its editor and clipboard. On success, the Visual exit runs on the dispatched editor, `is_dirty` is set and unsaved is recomputed. The result is then Handled, Visual implies a selection, and unsaved equals "the stored text differs from the content". Errors occur only on that content path. |
| Keys.DefaultNavigationClassification | src/app/ui/editor/mod.rs:615-636 | Arrow, Home/End and Page keys always qualify. `p n e a v` qualify exactly with Ctrl or Alt, and `f`/`b` exactly with Alt and without Ctrl. Without Ctrl or Alt, only the arrow and page keys qualify. |
| Text.TrimEmptyIffBlank | src/app/ui/editor/mod.rs:128-129 | `trim().is_empty()` holds exactly when every character is Unicode whitespace. |
| Text.JoinLinesIffCanonical | src/app/ui/editor/mod.rs:543-546 | Joining the `lines()` of a text gives the text back exactly when the text is canonical. |
| Text.LinesOfJoin | src/app/ui/editor/mod.rs:543-546 | Splitting the content of well-formed lines gives those lines back. |
| Text.LoadedJoinsBack | src/app/ui/editor/mod.rs:100-102 | A canonical stored text, once loaded and joined again, gives the same text. |
| Text.WellFormedReloads | src/app/ui/editor/mod.rs:543-546 | Joining a well-formed buffer and then loading it again gives the same lines. |
| Text.JoinEqualsIffLoaded | src/app/ui/editor/mod.rs:552-563 | For a canonical stored text and any buffer of at least one line with no line feed inside a line, the content equals the text exactly when the buffer holds the lines it loads as. |
| Text.CanonicalJoinIsWellFormed | src/app/ui/editor/mod.rs:543-546 | Lines whose join is canonical have no trailing empty line (unless they are one empty line) and no inner line ending in a carriage return. |
| Clock.FormatThenParse | src/app/ui/editor/mod.rs:125 | A formatted `%H:%M` stamp reads back as the same time. |
| Clock.ParseThenFormat | src/app/ui/editor/mod.rs:125 | Every stamp that reads as a time is exactly the formatting of that time. |
| Widget.New | src/app/ui/editor/mod.rs:100 | A new widget holds the given lines, or one empty line for none, and starts with no selection. |
| EditorProperties.SetEditorModeIdempotent | src/app/ui/editor/mod.rs:382-393 | Setting the same mode twice is the same as setting it once. |
| EditorProperties.SetEditorModeKeepsCoupling | src/app/ui/editor/mod.rs:382-393 | Every transition keeps "Visual exactly when selecting", except Insert to Visual, which leaves no selection. |
| EditorProperties.DeactivationLeavesNoVisual | src/app/ui/editor/mod.rs:528-540 | Deactivation keeps mode and selection coupled and never leaves Visual mode. |
| EditorProperties.LoadedContentReadsBack | src/app/ui/editor/mod.rs:85-110 | After loading an existing entry, `get_content` equals the stored text exactly when that text is canonical. |
| EditorProperties.LoadingNothingIsEmpty | src/app/ui/editor/mod.rs:85-110 | Loading no id or an unknown id gives empty content. |
| EditorProperties.UnsavedIffLinesDiffer | src/app/ui/editor/mod.rs:552-563 | Take a dirty editor whose buffer has at least one line and no line feed inside a line, and a canonical stored text. It is unsaved exactly when its lines differ from the loaded lines, so editing back to the original clears the flag. |
| EditorProperties.ReloadingStoredText | src/app/ui/editor/mod.rs:565-574 | Setting the current entry's own text leaves the editor saved when that text is canonical, and unsaved otherwise. |
| EditorProperties.MovingAfterLoad | src/app/ui/editor/mod.rs:230-235 | After loading the current entry, `h` keeps the text but marks the editor dirty. It is then unsaved exactly when the stored text is not canonical. |
| EditorProperties.MotionKeysKeepText | src/app/ui/editor/mod.rs:218-236 | In any mode, the Vim motion and scroll keys return Handled, keep the text and the clipboard, and mark the editor dirty. |
| EditorProperties.NavigationKeysKeepText | src/app/ui/editor/mod.rs:221-223 | If the widget's navigation keys only move the cursor, the navigation tier keeps the text and the mode. |
| EditorProperties.ControlAndAltPageKeys | src/app/ui/editor/mod.rs:365-368 | Ctrl+f and Ctrl+b reach the page scroll. Alt+f and Alt+b go to the widget as navigation. |
| EditorProperties.BackTabTwice | src/app/ui/editor/mod.rs:207-215 | Two BackTabs restore the focus and end in Normal mode. A Visual selection survives into Normal mode. |
| EditorProperties.SubmittedLineReadsBack | src/app/ui/editor/mod.rs:125-135 | The appended line parses as the submission time, then a space, then the note. |
| EditorProperties.FirstNoteFollowsEmptyLine | src/app/ui/editor/mod.rs:134-137 | A note submitted into an empty buffer follows its empty first line. |
| EditorProperties.PlainEnterDoesNotSubmit | src/app/ui/editor/mod.rs:121-155 | Plain Enter in the entry box goes to the box and leaves the buffer untouched. |
| EditorProperties.PrioritizedRouting | src/app/ui/editor/mod.rs:158-192 | Visual mode is prioritized, but the prioritized path returns NotFound for it. In Insert mode it always consumes the key. |
| EditorProperties.FailedWriteAfterVisualCut | src/app/ui/editor/mod.rs:224-235 | With sync on, a Visual `d` whose write fails after a successful cut is an error. It stays in Visual mode with no selection, and both flags are set. |
| EditorProperties.DeleteCharWithoutClipboard | src/app/ui/editor/mod.rs:331-334 | With sync off and no clipboard, `x` deletes the character, fails, and leaves the flags unchanged. |
| EditorProperties.VisualYank | src/app/ui/editor/mod.rs:259-267 | A successful Visual `y` keeps the text and ends in Normal mode without a selection. Without sync it always succeeds. |
| EditorProperties.VisualChangeWithSyncCopies | src/app/ui/editor/mod.rs:268-276 | With sync on, Visual `c` keeps the text and ends in Insert mode without a selection. |
| EditorProperties.UnboundKeyOnlyMarksDirty | src/app/ui/editor/mod.rs:371 | A key that no tier binds keeps the buffer and the mode. It only marks the editor dirty and recomputes the unsaved flag. |
| EditorProperties.CopyThenPaste | src/app/ui/editor/mod.rs:582-608 | After a successful Copy, the clipboard holds the copied yank text, and a Paste from it inserts exactly that text through `insert_str`, or does nothing when it is empty. |
| EditorProperties.LifecycleKeepsUnsavedOnlyWhenDirty | src/app/ui/editor/mod.rs:552-574 | A new editor, loading an entry, replacing content, changing mode and (de)activating all keep the unsaved flag under the dirty flag. |
| EditorProperties.PrioritizedKeepsUnsavedOnlyWhenDirty | src/app/ui/editor/mod.rs:112-193 | The prioritized path never leaves the editor unsaved but clean, for any key, on success or error. |
| EditorProperties.InputKeepsUnsavedOnlyWhenDirty | src/app/ui/editor/mod.rs:195-239 | The general path never leaves the editor unsaved but clean, for any key, on success or after a clipboard error. |

## Left out

- Rendering (`render_widget` and both scrollbars, lines 396-526) is presentation over ratatui.
- `src/app/ui/entries_list/mod.rs` renders the entry list; `src/settings/json_backend.rs` is a configuration struct with a fixed path. Neither holds editor logic.
- What the widget's own operations do is not modelled: word motions, undo/redo stacks, scrolling, cursor arithmetic, the content of the yank text, and whether a cut or a paste edits the lines. They are arbitrary functions in `TextLib`. So cut-then-paste and undo/redo round trips are not stated.
- The widget's key input is arbitrary, including for navigation keys. The lemma about the navigation tier assumes, as its precondition, that those keys only move the cursor.
- `exec_os_clipboard` opens a new `arboard` handle on each call. The model uses one capability record. Its `opens`, `readable` and `writable` flags stay fixed for one operation.
- The error-message text (`map_clipboard_error` and the paste error's message) is replaced by the two error kinds.
- `chrono::Local::now` is replaced by a `Time` input. The full timestamp (line 124) is computed but never used, so it is not modelled. The same goes for the entry date (line 90).
- The accessors `is_insert_mode`, `is_visual_mode`, `get_editor_mode` and `has_unsaved` are plain field reads of `mode` and `hasUnsaved`. The conversion from `Input` to `KeyEvent` (lines 42-51) is the identity on key and modifiers.
- The data provider behind `app.get_entry` and `app.get_current_entry` is not part of this model. The editor reads an `App` snapshot.
- KeyDispatch.HandleInput: states its dirty/unsaved and Visual-selection guarantees only when the call succeeds, because the source skips that bookkeeping on a clipboard error.

=== FILE: clipboard.dfy ===
/**
  The operating-system clipboard (the `arboard` crate) as a capability that
  may fail: opening a handle, reading and writing can each be refused.
*/
module OsClipboard {
  import opened Results

  datatype Clipboard = Clipboard(opens: bool, readable: bool, writable: bool, text: string)

  /** `set_text`: replaces the clipboard text when writing is possible; reports whether it was. */
  function SetText(c: Clipboard, s: string): (r: (Clipboard, bool))
    ensures r.1 <==> c.writable
    ensures r.1 ==> r.0 == c.(text := s)
    ensures !r.1 ==> r.0 == c
  {
    if c.writable then (c.(text := s), true) else (c, false)
  }

  /** `get_text`: the clipboard text, or nothing when reading is refused. */
  function GetText(c: Clipboard): (r: Option<string>)
    ensures r.Some? <==> c.readable
  {
    if c.readable then Some(c.text) else None
  }

  /** Reading right after a successful write gives back what was written. */
  lemma SetThenGet(c: Clipboard, s: string)
    requires c.readable && c.writable
    ensures GetText(SetText(c, s).0) == Some(s)
  {
  }
}

=== FILE: clock.dfy ===
/** The local wall-clock time the editor stamps on submitted notes, and its `%H:%M` rendering. */
module Clock {
  import opened Results

  type Hour = h: int | 0 <= h < 24
  type Minute = m: int | 0 <= m < 60

  /** The hour and minute of the local time at the moment of submission. */
  datatype Time = Time(hour: Hour, minute: Minute)

  predicate IsDigit(c: char) {
    '0' <= c <= '9'
  }

  function DigitChar(d: int): (c: char)
    requires 0 <= d < 10
    ensures IsDigit(c)
  {
    ['0', '1', '2', '3', '4', '5', '6', '7', '8', '9'][d]
  }

  function DigitValue(c: char): (d: int)
    requires IsDigit(c)
    ensures 0 <= d < 10
    ensures DigitChar(d) == c
  {
    if c == '0' then 0 else if c == '1' then 1 else if c == '2' then 2
    else if c == '3' then 3 else if c == '4' then 4 else if c == '5' then 5
    else if c == '6' then 6 else if c == '7' then 7 else if c == '8' then 8
    else 9
  }

  lemma DigitRoundTrip(d: int)
    requires 0 <= d < 10
    ensures DigitValue(DigitChar(d)) == d
  {
  }

  /** A number below one hundred written with two digits, zero-padded. */
  function TwoDigits(n: int): (r: string)
    requires 0 <= n < 100
    ensures |r| == 2 && IsDigit(r[0]) && IsDigit(r[1])
    ensures DigitValue(r[0]) * 10 + DigitValue(r[1]) == n
  {
    DigitRoundTrip(n / 10);
    DigitRoundTrip(n % 10);
    [DigitChar(n / 10), DigitChar(n % 10)]
  }

  /** chrono's `format("%H:%M")`: zero-padded 24-hour clock, a colon, zero-padded minutes. */
  function FormatHM(t: Time): (r: string)
    ensures |r| == 5 && r[2] == ':'
    ensures forall i :: 0 <= i < 5 && i != 2 ==> IsDigit(r[i])
  {
    TwoDigits(t.hour) + ":" + TwoDigits(t.minute)
  }

  /** Reads an `HH:MM` stamp back; the independent reference that `FormatHM` is checked against. */
  function ParseHM(s: string): Option<Time> {
    if |s| == 5 && s[2] == ':' && IsDigit(s[0]) && IsDigit(s[1]) && IsDigit(s[3]) && IsDigit(s[4]) then
      var h := DigitValue(s[0]) * 10 + DigitValue(s[1]);
      var m := DigitValue(s[3]) * 10 + DigitValue(s[4]);
      if h < 24 && m < 60 then Some(Time(h, m)) else None
    else None
  }

  /** Two digits read as a number and written back are the same two digits. */
  lemma TwoDigitsOfDigits(a: char, b: char)
    requires IsDigit(a) && IsDigit(b)
    ensures TwoDigits(DigitValue(a) * 10 + DigitValue(b)) == [a, b]
  {
    var x, y := DigitValue(a), DigitValue(b);
    var n := x * 10 + y;
    assert n / 10 == x && n % 10 == y;
  }

  /** A formatted time reads back as itself. */
  lemma FormatThenParse(t: Time)
    ensures ParseHM(FormatHM(t)) == Some(t)
  {
    var r, hh, mm := FormatHM(t), TwoDigits(t.hour), TwoDigits(t.minute);
    assert r[0] == hh[0] && r[1] == hh[1] && r[3] == mm[0] && r[4] == mm[1];
  }

  /** A readable stamp is the formatting of the time it reads as. */
  lemma ParseThenFormat(s: string, t: Time)
    requires ParseHM(s) == Some(t)
    ensures FormatHM(t) == s
  {
    TwoDigitsOfDigits(s[0], s[1]);
    TwoDigitsOfDigits(s[3], s[4]);
    assert s == [s[0], s[1]] + ":" + [s[3], s[4]];
  }
}

=== FILE: dispatch.dfy ===
/**
  Key handling of the editor (`src/app/ui/editor/mod.rs`): the prioritized path
  (entry box, Insert mode, clipboard shortcuts), the general path with focus
  switching, and the three dispatch tiers for the content area: default
  navigation, Visual-only commands, then the Vim-like table.
*/
module KeyDispatch {
  import opened Results
  import opened Keys
  import Text
  import Clock
  import W = Widget
  import opened OsClipboard
  import opened Store
  import opened ModalEditor

  /** A finished step with no error. */
  function Done(e: Editor, clip: Clipboard): (r: Step<()>)
    ensures r.editor == e && r.clipboard == clip && r.result.Ok?
  {
    Step(e, clip, Ok(()))
  }

  /** Forgets the response of a successful step, keeping its error, as `?` followed by `()` does. */
  function Unit(s: Step<Response>): (r: Step<()>)
    ensures r.editor == s.editor && r.clipboard == s.clipboard
    ensures r.result.Ok? <==> s.result.Ok?
    ensures r.result.Err? ==> r.result.error == s.result.error
  {
    match s.result
    case Ok(_) => Step(s.editor, s.clipboard, Ok(()))
    case Err(err) => Step(s.editor, s.clipboard, Err(err))
  }

  /** The text of the entry box: its first line, or nothing. */
  function EntryText(e: Editor): string {
    if |e.entryArea.lines| > 0 then e.entryArea.lines[0] else ""
  }

  /** The line a submitted note becomes: `HH:MM`, a space, the note. */
  function StampedLine(now: Clock.Time, text: string): string {
    Clock.FormatHM(now) + " " + text
  }

  /**
    Shift+Enter in the entry box. A blank note changes nothing (the box keeps
    its text). Otherwise the box is emptied and exactly one stamped line is
    appended after the buffer's unchanged lines, and both flags are set.
  */
  function SubmitEntry(e: Editor, now: Clock.Time, lib: W.TextLib): (r: Editor)
    ensures Text.AllWhitespace(EntryText(e)) ==> r == e
    ensures !Text.AllWhitespace(EntryText(e)) ==>
              && r.entryArea.lines == [""]
              && |r.contentArea.lines| == |e.contentArea.lines| + 1
              && r.contentArea.lines[..|e.contentArea.lines|] == e.contentArea.lines
              && r.contentArea.lines[|e.contentArea.lines|] == StampedLine(now, EntryText(e))
              && r.isDirty && r.hasUnsaved
    ensures !Text.AllWhitespace(EntryText(e)) ==>
              r.contentArea == W.Reload(lib, e.contentArea.lines + [StampedLine(now, EntryText(e))])
    ensures r.mode == e.mode && r.entryActive == e.entryActive && r.isActive == e.isActive
  {
    var text := EntryText(e);
    Text.TrimEmptyIffBlank(text);
    if |Text.Trim(text)| == 0 then e
    else
      var lines := e.contentArea.lines + [StampedLine(now, text)];
      assert lines[..|e.contentArea.lines|] == e.contentArea.lines;
      e.(entryArea := W.Empty(), contentArea := W.Reload(lib, lines), isDirty := true, hasUnsaved := true)
  }

  /** The keys of Insert mode that reach the OS clipboard when sync is on. */
  function ClipboardShortcut(input: Input): (r: Option<ClipboardOperation>)
    ensures r == Some(Cut) <==> Control in input.modifiers && input.code == Char('x')
    ensures r == Some(Copy) <==> Control in input.modifiers && input.code == Char('c')
    ensures r == Some(Paste) <==> Control in input.modifiers && input.code == Char('v')
  {
    if Control !in input.modifiers then None
    else match input.code
      case Char('x') => Some(Cut)
      case Char('c') => Some(Copy)
      case Char('v') => Some(Paste)
      case _ => None
  }

  predicate IsSubmit(input: Input) {
    input.code == Enter && Shift in input.modifiers
  }

  /**
    `handle_input_prioritized`. With the entry box focused every key is
    consumed: Shift+Enter submits, anything else goes to the box and, when the
    box reports a change, sets both flags. In Insert mode every key is consumed
    too, by the clipboard shortcuts when sync is on or else by the buffer,
    whose reported change marks the editor dirty and recomputes the unsaved
    flag. In every other case the key is not found and nothing changes.
  */
  function HandleInputPrioritized(e: Editor, input: Input, app: App, now: Clock.Time, lib: W.TextLib,
                                  clip: Clipboard): (r: Step<Response>)
    ensures r.result == Ok(NotFound) <==> !e.entryActive && e.mode != Insert
    ensures r.result == Ok(NotFound) ==> r == Step(e, clip, Ok(NotFound))
    ensures r.editor.mode == e.mode && r.editor.entryActive == e.entryActive
    ensures r.editor.isActive == e.isActive
    ensures r.result.Err? ==> !e.entryActive && app.syncOsClipboard && ClipboardShortcut(input).Some?
    ensures e.entryActive ==> r.result == Ok(Handled) && r.clipboard == clip
    ensures e.entryActive && IsSubmit(input) ==> r.editor == SubmitEntry(e, now, lib)
    ensures e.entryActive && !IsSubmit(input) ==>
              && r.editor.contentArea == e.contentArea
              && r.editor.entryArea == lib.input(e.entryArea, input).0
              && (lib.input(e.entryArea, input).1 ==> r.editor.isDirty && r.editor.hasUnsaved)
              && (!lib.input(e.entryArea, input).1 ==>
                    r.editor.isDirty == e.isDirty && r.editor.hasUnsaved == e.hasUnsaved)
    ensures !e.entryActive && e.mode == Insert && app.syncOsClipboard && ClipboardShortcut(input).Some? ==>
              var s := ExecOsClipboard(e, ClipboardShortcut(input).value, lib, clip);
              && r.editor == s.editor && r.clipboard == s.clipboard
              && (r.result.Ok? <==> s.result.Ok?)
              && (r.result.Err? ==> r.result.error == s.result.error)
    ensures !e.entryActive && e.mode == Insert && !(app.syncOsClipboard && ClipboardShortcut(input).Some?) ==>
              && r.result == Ok(Handled) && r.clipboard == clip
              && r.editor.entryArea == e.entryArea
              && r.editor.contentArea == lib.input(e.contentArea, input).0
              && (lib.input(e.contentArea, input).1 ==>
                    r.editor.isDirty && (r.editor.hasUnsaved <==> Unsaved(app, GetContent(r.editor))))
              && (!lib.input(e.contentArea, input).1 ==>
                    r.editor.isDirty == e.isDirty && r.editor.hasUnsaved == e.hasUnsaved)
  {
    if e.entryActive then
      if IsSubmit(input) then Step(SubmitEntry(e, now, lib), clip, Ok(Handled))
      else
        var (ea, changed) := lib.input(e.entryArea, input);
        var e1 := if changed then e.(entryArea := ea, isDirty := true, hasUnsaved := true)
                  else e.(entryArea := ea);
        Step(e1, clip, Ok(Handled))
    else if e.mode == Insert then
      if app.syncOsClipboard && ClipboardShortcut(input).Some? then
        var s := ExecOsClipboard(e, ClipboardShortcut(input).value, lib, clip);
        Step(s.editor, s.clipboard, if s.result.Ok? then Ok(Handled) else Err(s.result.error))
      else
        var (ca, changed) := lib.input(e.contentArea, input);
        if changed then Step(RefreshHasUnsaved(e.(contentArea := ca, isDirty := true), app), clip, Ok(Handled))
        else Step(e.(contentArea := ca), clip, Ok(Handled))
    else Step(e, clip, Ok(NotFound))
  }

  /**
    `handle_input_visual_only`: without modifiers, `d` cuts the selection, `y`
    copies it and returns to Normal mode, `c` cuts it (copies it, when sync is
    on) and enters Insert mode. Any modifier, or any other key, is left to the
    Vim table. Without sync the OS clipboard is never touched.
  */
  function HandleInputVisualOnly(e: Editor, input: Input, sync: bool, lib: W.TextLib, clip: Clipboard)
    : (r: Step<bool>)
    ensures input.modifiers != {} || input.code !in {Char('d'), Char('y'), Char('c')} ==>
              r == Step(e, clip, Ok(false))
    ensures input.modifiers == {} && input.code in {Char('d'), Char('y'), Char('c')} ==>
              (r.result.Ok? ==> r.result.value)
    ensures input.code == Char('y') && r.result == Ok(true) ==>
              r.editor.mode == Normal && (e.mode == Visual ==> !r.editor.contentArea.selecting)
    ensures input.code == Char('c') && r.result == Ok(true) ==> r.editor.mode == Insert
    ensures input.code == Char('d') || r.result.Err? ==> r.editor.mode == e.mode
    ensures input.code == Char('y') ==> r.editor.contentArea.lines == e.contentArea.lines
    ensures sync && input.code == Char('c') ==> r.editor.contentArea.lines == e.contentArea.lines
    ensures !sync ==> r.result.Ok? && r.clipboard == clip
    ensures sync && !clip.opens && input.modifiers == {} && input.code in {Char('d'), Char('y'), Char('c')} ==>
              r.editor == e && r.result.Err?
    ensures r.editor.entryActive == e.entryActive && r.editor.entryArea == e.entryArea
    // Without sync: `d` and `c` cut through the widget, `y` copies through it.
    ensures input == Input(Char('d'), {}) && !sync ==>
              r == Step(e.(contentArea := lib.cut(e.contentArea).0), clip, Ok(true))
    ensures input == Input(Char('c'), {}) && !sync ==>
              r == Step(SetEditorMode(e.(contentArea := lib.cut(e.contentArea).0), Insert), clip, Ok(true))
    ensures input == Input(Char('y'), {}) && !sync ==>
              r == Step(SetEditorMode(e.(contentArea := W.Copy(lib, e.contentArea)), Normal), clip, Ok(true))
    // With sync: `d` is the OS-clipboard cut, `y` and `c` the OS-clipboard copy.
    ensures input == Input(Char('d'), {}) && sync ==>
              var s := ExecOsClipboard(e, Cut, lib, clip);
              r.editor == s.editor && r.clipboard == s.clipboard && (r.result.Ok? <==> s.result.Ok?)
    ensures input in {Input(Char('y'), {}), Input(Char('c'), {})} && sync ==>
              var s := ExecOsClipboard(e, Copy, lib, clip);
              && r.clipboard == s.clipboard && (r.result.Ok? <==> s.result.Ok?)
              && (r.result.Err? ==> r.editor == s.editor)
              && (r.result.Ok? ==> r.editor == SetEditorMode(s.editor, if input.code == Char('y') then Normal else Insert))
    ensures MarksOrKeeps(e, r.editor)
  {
    if input.modifiers != {} then Step(e, clip, Ok(false))
    else match input.code
      case Char('d') =>
        if sync then ConsumeAfterClipboard(ExecOsClipboard(e, Cut, lib, clip), None)
        else Step(e.(contentArea := lib.cut(e.contentArea).0), clip, Ok(true))
      case Char('y') =>
        if sync then ConsumeAfterClipboard(ExecOsClipboard(e, Copy, lib, clip), Some(Normal))
        else Step(SetEditorMode(e.(contentArea := W.Copy(lib, e.contentArea)), Normal), clip, Ok(true))
      case Char('c') =>
        if sync then ConsumeAfterClipboard(ExecOsClipboard(e, Copy, lib, clip), Some(Insert))
        else Step(SetEditorMode(e.(contentArea := lib.cut(e.contentArea).0), Insert), clip, Ok(true))
      case _ => Step(e, clip, Ok(false))
  }

  /** After a clipboard step that succeeded, switch mode (if asked) and report the key as consumed. */
  function ConsumeAfterClipboard(s: Step<Response>, m: Option<Mode>): (r: Step<bool>)
    ensures r.clipboard == s.clipboard
    ensures r.result.Ok? <==> s.result.Ok?
    ensures r.result.Ok? ==> r.result.value
    ensures r.result.Err? ==> r.editor == s.editor && r.result.error == s.result.error
    ensures r.result.Ok? && m.Some? ==> r.editor == SetEditorMode(s.editor, m.value)
    ensures m.None? ==> r.editor == s.editor
  {
    match s.result
    case Err(err) => Step(s.editor, s.clipboard, Err(err))
    case Ok(_) =>
      var e1 := if m.Some? then SetEditorMode(s.editor, m.value) else s.editor;
      Step(e1, s.clipboard, Ok(true))
  }

  /** The bindings of the Vim table, as (character, Control held). */
  const VimBindings: set<(char, bool)> :=
    {('h', false), ('j', false), ('k', false), ('l', false), ('w', false), ('e', false),
     ('b', false), ('^', false), ('$', false), ('D', false), ('C', false), ('p', false),
     ('u', false), ('r', true), ('x', false), ('i', false), ('a', false), ('A', false),
     ('o', false), ('O', false), ('I', false), ('d', true), ('u', true), ('f', true), ('b', true)}

  /** The bindings that only move the cursor or scroll. */
  const MotionBindings: set<(char, bool)> :=
    {('h', false), ('j', false), ('k', false), ('l', false), ('w', false), ('e', false),
     ('b', false), ('^', false), ('$', false), ('d', true), ('u', true), ('f', true), ('b', true)}

  /** The bindings that enter Insert mode. */
  const InsertBindings: set<(char, bool)> :=
    {('C', false), ('i', false), ('a', false), ('A', false), ('o', false), ('O', false), ('I', false)}

  /** The bindings that copy to the OS clipboard whatever the sync setting. */
  const CopyingBindings: set<(char, bool)> := {('D', false), ('C', false), ('x', false)}

  /** The binding an input selects in the Vim table, if any. */
  function Binding(input: Input): Option<(char, bool)> {
    if input.code.Char? then Some((input.code.c, Control in input.modifiers)) else None
  }

  predicate BoundIn(input: Input, table: set<(char, bool)>) {
    Binding(input).Some? && Binding(input).value in table
  }

  function Move(e: Editor, lib: W.TextLib, m: W.CursorMove): (r: Editor)
    ensures r.contentArea.lines == e.contentArea.lines && r.contentArea.selecting == e.contentArea.selecting
    ensures r == e.(contentArea := r.contentArea)
  {
    e.(contentArea := W.MoveCursor(lib, e.contentArea, m))
  }

  function ScrollBy(e: Editor, lib: W.TextLib, s: W.Scrolling): (r: Editor)
    ensures r.contentArea.lines == e.contentArea.lines && r.contentArea.selecting == e.contentArea.selecting
    ensures r == e.(contentArea := r.contentArea)
  {
    e.(contentArea := W.Scroll(lib, e.contentArea, s))
  }

  /** An edit followed by an OS-clipboard copy; Insert mode is entered only when the copy succeeded. */
  function EditThenCopy(e: Editor, lib: W.TextLib, clip: Clipboard, insert: bool): (r: Step<()>)
    ensures r.result.Ok? <==> clip.opens && clip.writable
    ensures r.result.Ok? ==> r.clipboard.text == r.editor.contentArea.yank
    ensures r.clipboard == (if clip.opens && clip.writable then clip.(text := r.editor.contentArea.yank) else clip)
    ensures r.result.Ok? && insert ==> r.editor.mode == Insert
    ensures r.result.Err? || !insert ==> r.editor.mode == e.mode
    ensures r.editor.isDirty == e.isDirty && r.editor.hasUnsaved == e.hasUnsaved
    ensures r.editor.entryActive == e.entryActive && r.editor.entryArea == e.entryArea
    ensures clip.opens ==> r.editor.contentArea == W.Copy(lib, e.contentArea)
    ensures !clip.opens ==> r == Step(e, clip, Err(ClipboardAccess))
  {
    var s := ExecOsClipboard(e, Copy, lib, clip);
    if s.result.Err? then Step(s.editor, s.clipboard, Err(s.result.error))
    else if insert then Done(s.editor.(mode := Insert), s.clipboard)
    else Done(s.editor, s.clipboard)
  }

  /**
    `handle_vim_motions`. Motions and scrolls move only the view; the mode-entry
    keys set Insert mode directly (no selection bookkeeping); `D`, `C` and `x`
    edit and then copy to the OS clipboard whatever the sync setting; `p`
    pastes from the OS clipboard only under sync. Keys outside the table change
    nothing. Only `D`, `C`, `x` and a synced `p` can fail, and only they can
    change the clipboard.
  */
  function HandleVimMotions(e: Editor, input: Input, sync: bool, lib: W.TextLib, clip: Clipboard)
    : (r: Step<()>)
    ensures !BoundIn(input, VimBindings) ==> r == Step(e, clip, Ok(()))
    ensures BoundIn(input, MotionBindings) ==>
              && r.result.Ok? && r.clipboard == clip
              && r.editor == e.(contentArea := r.editor.contentArea)
              && r.editor.contentArea.lines == e.contentArea.lines
              && r.editor.contentArea.selecting == e.contentArea.selecting
    ensures BoundIn(input, InsertBindings - CopyingBindings) ==> r.result.Ok? && r.editor.mode == Insert
    ensures BoundIn(input, MotionBindings) ==> r == Done(VimMotion(e, Binding(input).value, lib), clip)
    ensures BoundIn(input, InsertBindings - CopyingBindings) ==>
              r == Done(VimEnterInsert(e, Binding(input).value, lib), clip)
    ensures BoundIn(input, CopyingBindings) ==> r == VimCopyingEdit(e, Binding(input).value, lib, clip)
    ensures r.result.Err? ==>
              BoundIn(input, CopyingBindings) || (sync && Binding(input) == Some(('p', false)))
    ensures !BoundIn(input, InsertBindings) ==> r.editor.mode == e.mode
    ensures !BoundIn(input, CopyingBindings) && !(sync && Binding(input) == Some(('p', false))) ==>
              r.clipboard == clip && r.result.Ok?
    ensures r.editor.entryActive == e.entryActive && r.editor.entryArea == e.entryArea
    ensures r.editor.isActive == e.isActive
    ensures Binding(input) in {Some(('p', false)), Some(('u', false)), Some(('r', true))} ==>
              r == VimPasteOrHistory(e, Binding(input), sync, lib, clip)
    ensures MarksOrKeeps(e, r.editor)
  {
    var b := Binding(input);
    if BoundIn(input, MotionBindings) then Done(VimMotion(e, b.value, lib), clip)
    else if BoundIn(input, CopyingBindings) then VimCopyingEdit(e, b.value, lib, clip)
    else if BoundIn(input, InsertBindings) then Done(VimEnterInsert(e, b.value, lib), clip)
    else VimPasteOrHistory(e, b, sync, lib, clip)
  }

  /**
    The rows `D`, `C` and `x`: the widget's delete to the end of the line (`D`,
    `C`) or of the next character (`x`), then a copy to the OS clipboard
    whatever the sync setting; `C` enters Insert mode once the copy succeeded.
  */
  function VimCopyingEdit(e: Editor, b: (char, bool), lib: W.TextLib, clip: Clipboard): (r: Step<()>)
    ensures r.result.Ok? <==> clip.opens && clip.writable
    ensures r.result.Ok? ==> r.clipboard.text == r.editor.contentArea.yank
    ensures r.clipboard == (if clip.opens && clip.writable then clip.(text := r.editor.contentArea.yank) else clip)
    ensures r.result.Err? ==> r.result.error == ClipboardAccess
    ensures r.editor.mode == (if b == ('C', false) && r.result.Ok? then Insert else e.mode)
    ensures b in {('D', false), ('C', false)} ==>
              r.editor.contentArea == (var w := lib.deleteLineByEnd(e.contentArea).0;
                                       if clip.opens then W.Copy(lib, w) else w)
    ensures b == ('x', false) ==>
              r.editor.contentArea == (var w := lib.deleteNextChar(e.contentArea).0;
                                       if clip.opens then W.Copy(lib, w) else w)
    ensures r.editor == e.(contentArea := r.editor.contentArea, mode := r.editor.mode)
  {
    EditThenCopy(VimEdit(e, b, lib), lib, clip, b == ('C', false))
  }

  /** The rows `p`, `u` and Control+`r`: paste, undo and redo; any other binding does nothing. */
  function VimPasteOrHistory(e: Editor, b: Option<(char, bool)>, sync: bool, lib: W.TextLib, clip: Clipboard)
    : (r: Step<()>)
    ensures b == Some(('p', false)) && !sync ==>
              r == Step(e.(contentArea := lib.paste(e.contentArea).0), clip, Ok(()))
    ensures b == Some(('p', false)) && sync ==>
              var s := ExecOsClipboard(e, Paste, lib, clip);
              && r.editor == s.editor && r.clipboard == s.clipboard
              && (r.result.Ok? <==> s.result.Ok?)
              && (r.result.Err? ==> r.result.error == s.result.error)
    ensures b == Some(('u', false)) ==> r == Step(e.(contentArea := lib.undo(e.contentArea).0), clip, Ok(()))
    ensures b == Some(('r', true)) ==> r == Step(e.(contentArea := lib.redo(e.contentArea).0), clip, Ok(()))
    ensures b !in {Some(('p', false)), Some(('u', false)), Some(('r', true))} ==> r == Step(e, clip, Ok(()))
    ensures r.editor == e.(contentArea := r.editor.contentArea, isDirty := r.editor.isDirty,
                           hasUnsaved := r.editor.hasUnsaved)
    ensures MarksOrKeeps(e, r.editor)
  {
    if b == Some(('p', false)) then
      if sync then Unit(ExecOsClipboard(e, Paste, lib, clip))
      else Done(e.(contentArea := lib.paste(e.contentArea).0), clip)
    else if b == Some(('u', false)) then Done(e.(contentArea := lib.undo(e.contentArea).0), clip)
    else if b == Some(('r', true)) then Done(e.(contentArea := lib.redo(e.contentArea).0), clip)
    else Done(e, clip)
  }

  /** The motion and scroll rows of the Vim table: only the view moves. */
  function VimMotion(e: Editor, b: (char, bool), lib: W.TextLib): (r: Editor)
    ensures r.contentArea.lines == e.contentArea.lines && r.contentArea.selecting == e.contentArea.selecting
    ensures r == e.(contentArea := r.contentArea)
    ensures b == ('h', false) ==> r.contentArea == W.MoveCursor(lib, e.contentArea, W.Back)
    ensures b == ('j', false) ==> r.contentArea == W.MoveCursor(lib, e.contentArea, W.Down)
    ensures b == ('k', false) ==> r.contentArea == W.MoveCursor(lib, e.contentArea, W.Up)
    ensures b == ('l', false) ==> r.contentArea == W.MoveCursor(lib, e.contentArea, W.Forward)
    ensures b in {('w', false), ('e', false)} ==> r.contentArea == W.MoveCursor(lib, e.contentArea, W.WordForward)
    ensures b == ('b', false) ==> r.contentArea == W.MoveCursor(lib, e.contentArea, W.WordBack)
    ensures b == ('^', false) ==> r.contentArea == W.MoveCursor(lib, e.contentArea, W.Head)
    ensures b == ('$', false) ==> r.contentArea == W.MoveCursor(lib, e.contentArea, W.End)
    ensures b == ('d', true) ==> r.contentArea == W.Scroll(lib, e.contentArea, W.HalfPageDown)
    ensures b == ('u', true) ==> r.contentArea == W.Scroll(lib, e.contentArea, W.HalfPageUp)
    ensures b == ('f', true) ==> r.contentArea == W.Scroll(lib, e.contentArea, W.PageDown)
    ensures b == ('b', true) ==> r.contentArea == W.Scroll(lib, e.contentArea, W.PageUp)
    ensures b !in MotionBindings ==> r == e
  {
    if b.1 then ScrollRow(e, b.0, lib) else CursorRow(e, b.0, lib)
  }

  /** The unmodified motion rows: one cursor move each. */
  function CursorRow(e: Editor, c: char, lib: W.TextLib): (r: Editor)
    ensures r == e.(contentArea := r.contentArea)
    ensures r.contentArea.lines == e.contentArea.lines && r.contentArea.selecting == e.contentArea.selecting
    ensures c == 'h' ==> r.contentArea == W.MoveCursor(lib, e.contentArea, W.Back)
    ensures c == 'j' ==> r.contentArea == W.MoveCursor(lib, e.contentArea, W.Down)
    ensures c == 'k' ==> r.contentArea == W.MoveCursor(lib, e.contentArea, W.Up)
    ensures c == 'l' ==> r.contentArea == W.MoveCursor(lib, e.contentArea, W.Forward)
    ensures c == 'w' || c == 'e' ==> r.contentArea == W.MoveCursor(lib, e.contentArea, W.WordForward)
    ensures c == 'b' ==> r.contentArea == W.MoveCursor(lib, e.contentArea, W.WordBack)
    ensures c == '^' ==> r.contentArea == W.MoveCursor(lib, e.contentArea, W.Head)
    ensures c == '$' ==> r.contentArea == W.MoveCursor(lib, e.contentArea, W.End)
    ensures (c, false) !in MotionBindings ==> r == e
  {
    match c
    case 'h' => Move(e, lib, W.Back)
    case 'j' => Move(e, lib, W.Down)
    case 'k' => Move(e, lib, W.Up)
    case 'l' => Move(e, lib, W.Forward)
    case 'w' => Move(e, lib, W.WordForward)
    case 'e' => Move(e, lib, W.WordForward)
    case 'b' => Move(e, lib, W.WordBack)
    case '^' => Move(e, lib, W.Head)
    case '$' => Move(e, lib, W.End)
    case _ => e
  }

  /** The Control motion rows: one scroll each. */
  function ScrollRow(e: Editor, c: char, lib: W.TextLib): (r: Editor)
    ensures r == e.(contentArea := r.contentArea)
    ensures r.contentArea.lines == e.contentArea.lines && r.contentArea.selecting == e.contentArea.selecting
    ensures c == 'd' ==> r.contentArea == W.Scroll(lib, e.contentArea, W.HalfPageDown)
    ensures c == 'u' ==> r.contentArea == W.Scroll(lib, e.contentArea, W.HalfPageUp)
    ensures c == 'f' ==> r.contentArea == W.Scroll(lib, e.contentArea, W.PageDown)
    ensures c == 'b' ==> r.contentArea == W.Scroll(lib, e.contentArea, W.PageUp)
    ensures (c, true) !in MotionBindings ==> r == e
  {
    match c
    case 'd' => ScrollBy(e, lib, W.HalfPageDown)
    case 'u' => ScrollBy(e, lib, W.HalfPageUp)
    case 'f' => ScrollBy(e, lib, W.PageDown)
    case 'b' => ScrollBy(e, lib, W.PageUp)
    case _ => e
  }

  /** The edit of `D` and `C` (delete to the end of the line) and of `x` (delete the next character). */
  function VimEdit(e: Editor, b: (char, bool), lib: W.TextLib): (r: Editor)
    ensures r == e.(contentArea := r.contentArea)
    ensures b in {('D', false), ('C', false)} ==> r.contentArea == lib.deleteLineByEnd(e.contentArea).0
    ensures b == ('x', false) ==> r.contentArea == lib.deleteNextChar(e.contentArea).0
  {
    match b
    case ('D', false) => e.(contentArea := lib.deleteLineByEnd(e.contentArea).0)
    case ('C', false) => e.(contentArea := lib.deleteLineByEnd(e.contentArea).0)
    case ('x', false) => e.(contentArea := lib.deleteNextChar(e.contentArea).0)
    case _ => e
  }

  /** The mode-entry rows `i a A o O I`: position the cursor, maybe open a line, and set Insert mode directly. */
  function VimEnterInsert(e: Editor, b: (char, bool), lib: W.TextLib): (r: Editor)
    ensures b in InsertBindings - CopyingBindings ==> r.mode == Insert
    ensures b !in InsertBindings - CopyingBindings ==> r == e
    ensures r == e.(contentArea := r.contentArea, mode := r.mode)
    ensures b in {('i', false), ('a', false), ('A', false), ('I', false)} ==>
              r.contentArea.lines == e.contentArea.lines && r.contentArea.selecting == e.contentArea.selecting
    ensures b == ('i', false) ==> r == e.(mode := Insert)
    ensures b == ('a', false) ==> r.contentArea == W.MoveCursor(lib, e.contentArea, W.Forward)
    ensures b == ('A', false) ==> r.contentArea == W.MoveCursor(lib, e.contentArea, W.End)
    ensures b == ('I', false) ==> r.contentArea == W.MoveCursor(lib, e.contentArea, W.Head)
    ensures b == ('o', false) ==> r.contentArea == lib.insertNewline(W.MoveCursor(lib, e.contentArea, W.End))
    ensures b == ('O', false) ==>
              r.contentArea == W.MoveCursor(lib, lib.insertNewline(W.MoveCursor(lib, e.contentArea, W.Head)), W.Up)
  {
    match b
    case ('i', false) => e.(mode := Insert)
    case ('a', false) => Move(e, lib, W.Forward).(mode := Insert)
    case ('A', false) => Move(e, lib, W.End).(mode := Insert)
    case ('o', false) =>
      var e1 := Move(e, lib, W.End);
      e1.(contentArea := lib.insertNewline(e1.contentArea), mode := Insert)
    case ('O', false) =>
      var e1 := Move(e, lib, W.Head);
      var e2 := e1.(contentArea := lib.insertNewline(e1.contentArea));
      Move(e2, lib, W.Up).(mode := Insert)
    case ('I', false) => Move(e, lib, W.Head).(mode := Insert)
    case _ => e
  }

  /**
    The three tiers for a key reaching the content area: default navigation
    goes to the widget; otherwise, in Visual mode, the Visual-only commands get
    the key first; whatever is left goes to the Vim table.
  */
  function DispatchContentKey(e: Editor, input: Input, sync: bool, lib: W.TextLib, clip: Clipboard)
    : (r: Step<()>)
    ensures IsDefaultNavigation(input) ==>
              r == Done(e.(contentArea := lib.input(e.contentArea, input).0), clip)
    ensures !IsDefaultNavigation(input) && e.mode != Visual ==> r == HandleVimMotions(e, input, sync, lib, clip)
    ensures !IsDefaultNavigation(input) && e.mode == Visual
            && (input.modifiers != {} || input.code !in {Char('d'), Char('y'), Char('c')}) ==>
              r == HandleVimMotions(e, input, sync, lib, clip)
    ensures !IsDefaultNavigation(input) && e.mode == Visual
            && input.modifiers == {} && input.code in {Char('d'), Char('y'), Char('c')} ==>
              var v := HandleInputVisualOnly(e, input, sync, lib, clip);
              && r.editor == v.editor && r.clipboard == v.clipboard
              && (r.result.Ok? <==> v.result.Ok?)
    ensures r.editor.entryActive == e.entryActive && r.editor.isActive == e.isActive
    ensures MarksOrKeeps(e, r.editor)
  {
    if IsDefaultNavigation(input) then
      Done(e.(contentArea := lib.input(e.contentArea, input).0), clip)
    else if e.mode != Visual then
      HandleVimMotions(e, input, sync, lib, clip)
    else
      var v := HandleInputVisualOnly(e, input, sync, lib, clip);
      match v.result
      case Err(err) => Step(v.editor, v.clipboard, Err(err))
      case Ok(consumed) =>
        if consumed then Done(v.editor, v.clipboard)
        else HandleVimMotions(v.editor, input, sync, lib, v.clipboard)
  }

  /** Leaves Visual mode when the widget no longer has a selection. */
  function ExitVisualIfUnselected(e: Editor): (r: Editor)
    ensures r.mode == Visual ==> r.contentArea.selecting
    ensures r.contentArea.lines == e.contentArea.lines
    ensures e.mode != Visual || e.contentArea.selecting ==> r == e
    ensures e.mode == Visual && !e.contentArea.selecting ==> r == SetEditorMode(e, Normal)
    ensures r.entryActive == e.entryActive && r.isActive == e.isActive
    ensures r.isDirty == e.isDirty && r.hasUnsaved == e.hasUnsaved
  {
    if !e.contentArea.selecting && e.mode == Visual then SetEditorMode(e, Normal) else e
  }

  /**
    `handle_input`. Without a current entry every key is swallowed. BackTab
    swaps the focus between entry box and content, forcing Normal mode (by
    direct assignment) when the content gains it. A key for the content area
    goes through the three tiers; when that succeeds the response is Handled,
    Visual mode implies an active selection, the editor is dirty, even after
    pure movement, and the unsaved flag is recomputed. A clipboard error
    skips the Visual check and the recomputation.
  */
  function HandleInput(e: Editor, input: Input, app: App, lib: W.TextLib, clip: Clipboard): (r: Step<Response>)
    ensures GetCurrentEntry(app).None? ==> r == Step(e, clip, Ok(Handled))
    ensures r.result.Ok? ==> r.result.value == Handled
    ensures r.editor.isActive == e.isActive
    ensures GetCurrentEntry(app).Some? && input.code == BackTab ==>
              && r.result == Ok(Handled) && r.clipboard == clip
              && r.editor.entryActive == !e.entryActive
              && r.editor.mode == (if r.editor.entryActive then e.mode else Normal)
              && r.editor == e.(entryActive := r.editor.entryActive, mode := r.editor.mode)
    ensures GetCurrentEntry(app).Some? && input.code != BackTab && e.entryActive ==>
              r == Step(e, clip, Ok(Handled))
    ensures GetCurrentEntry(app).Some? && input.code != BackTab && !e.entryActive && r.result.Ok? ==>
              && !r.editor.entryActive
              && (r.editor.mode == Visual ==> r.editor.contentArea.selecting)
              && r.editor.isDirty
              && (r.editor.hasUnsaved <==> Unsaved(app, GetContent(r.editor)))
    ensures r.result.Err? ==> GetCurrentEntry(app).Some? && input.code != BackTab && !e.entryActive
    ensures GetCurrentEntry(app).Some? && input.code != BackTab && !e.entryActive ==>
              var s := DispatchContentKey(e, input, app.syncOsClipboard, lib, clip);
              && r.clipboard == s.clipboard
              && (r.result.Ok? <==> s.result.Ok?)
              && (r.result.Err? ==> r.editor == s.editor && r.result.error == s.result.error)
              && (r.result.Ok? ==> r.editor == RefreshHasUnsaved(ExitVisualIfUnselected(s.editor).(isDirty := true), app))
  {
    if GetCurrentEntry(app).None? then Step(e, clip, Ok(Handled))
    else if input.code == BackTab then
      var active := !e.entryActive;
      Step(e.(entryActive := active, mode := if active then e.mode else Normal), clip, Ok(Handled))
    else if e.entryActive then Step(e, clip, Ok(Handled))
    else
      var s := DispatchContentKey(e, input, app.syncOsClipboard, lib, clip);
      match s.result
      case Err(err) => Step(s.editor, s.clipboard, Err(err))
      case Ok(_) =>
        var e1 := ExitVisualIfUnselected(s.editor);
        Step(RefreshHasUnsaved(e1.(isDirty := true), app), s.clipboard, Ok(Handled))
  }
}

=== FILE: editor.dfy ===
/**
  The modal editor of the journal's editing pane (`src/app/ui/editor/mod.rs`):
  its state record, the Normal/Insert/Visual mode machine, activation, loading
  an entry, dirty/unsaved bookkeeping and the bridge to the operating-system
  clipboard. Key dispatch lives in `KeyDispatch`.
*/
module ModalEditor {
  import opened Results
  import Text
  import W = Widget
  import opened OsClipboard
  import opened Store

  datatype Mode = Normal | Insert | Visual

  /**
    `entryArea` is the one-line capture box, `contentArea` the entry being
    edited; `entryActive` says which of the two has the focus.
  */
  datatype Editor = Editor(
    entryArea: W.TextArea,
    contentArea: W.TextArea,
    entryActive: bool,
    mode: Mode,
    isActive: bool,
    isDirty: bool,
    hasUnsaved: bool)

  /** What a handler tells the surrounding key router. */
  datatype Response = Handled | NotFound

  datatype ClipboardOperation = Copy | Cut | Paste

  /**
    The editor and the clipboard after an operation, with its outcome. As in the
    source, an error leaves every change made before the failing call in place.
  */
  datatype Step<T> = Step(editor: Editor, clipboard: Clipboard, result: Result<T>)

  /** `Editor::new`: both boxes empty, Normal mode, nothing focused, nothing dirty. */
  function NewEditor(): (e: Editor)
    ensures e.mode == Normal && !e.entryActive && !e.isActive
    ensures !e.isDirty && !e.hasUnsaved
    ensures e.entryArea.lines == [""] && e.contentArea.lines == [""]
    ensures !e.contentArea.selecting
  {
    Editor(W.Empty(), W.Empty(), false, Normal, false, false, false)
  }

  /** `is_prioritized`: Insert and Visual mode ask to see keys first. */
  predicate IsPrioritized(e: Editor) {
    e.mode == Insert || e.mode == Visual
  }

  /** `get_content`: the buffer's lines joined with line feeds. */
  function GetContent(e: Editor): string {
    Text.Join(e.contentArea.lines)
  }

  /** The current entry exists and its stored text differs from `content`. */
  predicate Unsaved(app: App, content: string) {
    match GetCurrentEntry(app)
    case Some(entry) => entry.content != content
    case None => false
  }

  /**
    `set_editor_mode`: the requested mode always takes effect; Normal to Visual
    starts a selection, leaving Visual for Normal or Insert cancels it, and
    every other pair leaves the buffer alone.
  */
  function SetEditorMode(e: Editor, m: Mode): (r: Editor)
    ensures r.mode == m
    ensures e.mode == Normal && m == Visual ==> r.contentArea.selecting
    ensures e.mode == Visual && m != Visual ==> !r.contentArea.selecting
    ensures !(e.mode == Normal && m == Visual) && !(e.mode == Visual && m != Visual) ==>
              r.contentArea == e.contentArea
    ensures r.contentArea.lines == e.contentArea.lines
    ensures r.contentArea.yank == e.contentArea.yank
    ensures e.mode == Normal && m == Visual ==> r.contentArea == W.StartSelection(e.contentArea)
    ensures e.mode == Visual && m != Visual ==> r.contentArea == W.CancelSelection(e.contentArea)
    ensures r == e.(mode := m, contentArea := r.contentArea)
  {
    var ca :=
      if e.mode == Normal && m == Visual then W.StartSelection(e.contentArea)
      else if e.mode == Visual && m != Visual then W.CancelSelection(e.contentArea)
      else e.contentArea;
    e.(contentArea := ca, mode := m)
  }

  /**
    `set_active`: focus goes to the entry box exactly when the editor becomes
    active; deactivating in Visual mode drops the selection and returns to
    Normal. The buffer's text is never touched.
  */
  function SetActive(e: Editor, active: bool): (r: Editor)
    ensures r.isActive == active && r.entryActive == active
    ensures !active ==> r.mode != Visual
    ensures !active && e.mode == Visual ==> r.mode == Normal && !r.contentArea.selecting
    ensures !active && e.mode == Visual ==> r == SetEditorMode(e, Normal).(isActive := false, entryActive := false)
    ensures active || e.mode != Visual ==> r.mode == e.mode && r.contentArea == e.contentArea
    ensures r.contentArea.lines == e.contentArea.lines
    ensures r.entryArea == e.entryArea && r.isDirty == e.isDirty && r.hasUnsaved == e.hasUnsaved
  {
    var e1 := if !active && e.mode == Visual then SetEditorMode(e, Normal) else e;
    e1.(isActive := active, entryActive := active)
  }

  /**
    `refresh_has_unsaved`: recomputed from scratch, never patched: the flag is
    set exactly when the editor is dirty and the current entry exists with a
    stored text other than the buffer's content.
  */
  function RefreshHasUnsaved(e: Editor, app: App): (r: Editor)
    ensures !e.isDirty ==> !r.hasUnsaved
    ensures GetCurrentEntry(app).None? ==> !r.hasUnsaved
    ensures r.hasUnsaved <==> e.isDirty && Unsaved(app, GetContent(e))
    ensures r == e.(hasUnsaved := r.hasUnsaved)
  {
    e.(hasUnsaved := e.isDirty && Unsaved(app, GetContent(e)))
  }

  /**
    The dirty flags either stay as they were or are both set: no operation
    here clears one without the other or sets only one.
  */
  predicate MarksOrKeeps(before: Editor, after: Editor) {
    || (after.isDirty == before.isDirty && after.hasUnsaved == before.hasUnsaved)
    || (after.isDirty && after.hasUnsaved)
  }

  /** The lines a stored text is loaded as. */
  function LoadedLines(content: string): seq<string> {
    Text.AtLeastOneLine(Text.Lines(content))
  }

  /**
    `set_current_entry`: rebuilds the buffer from the entry with this id (one
    empty line when there is no id or no such entry), empties and unfocuses the
    entry box, returns to Normal mode and clears both dirty flags.
  */
  function SetCurrentEntry(e: Editor, id: Option<u32>, app: App, lib: W.TextLib): (r: Editor)
    ensures r.mode == Normal && !r.entryActive && r.entryArea.lines == [""]
    ensures !r.isDirty && !r.hasUnsaved
    ensures r.isActive == e.isActive
    ensures !r.contentArea.selecting
    ensures id.Some? && id.value in app.entries ==>
              r.contentArea.lines == LoadedLines(app.entries[id.value].content)
    ensures !(id.Some? && id.value in app.entries) ==> r.contentArea.lines == [""]
    ensures id.Some? && id.value in app.entries ==>
              r.contentArea == W.Reload(lib, Text.Lines(app.entries[id.value].content))
    ensures !(id.Some? && id.value in app.entries) ==> r.contentArea == W.Reload(lib, [])
  {
    var lines :=
      match id
      case Some(i) => (match GetEntry(app, i) case Some(entry) => Text.Lines(entry.content) case None => [])
      case None => [];
    var e1 := e.(contentArea := W.Reload(lib, lines), entryArea := W.Empty(), entryActive := false,
                 mode := Normal, isDirty := false);
    RefreshHasUnsaved(e1, app)
  }

  /**
    `set_entry_content`: replaces the buffer with the lines of `content` and
    marks the editor dirty; it is then unsaved exactly when the current entry
    exists and its stored text is not what the new buffer joins to.
  */
  function SetEntryContent(e: Editor, content: string, app: App, lib: W.TextLib): (r: Editor)
    ensures r.isDirty
    ensures r.contentArea.lines == LoadedLines(content) && !r.contentArea.selecting
    ensures r.contentArea == W.Reload(lib, Text.Lines(content))
    ensures r.hasUnsaved <==> Unsaved(app, Text.Join(Text.Lines(content)))
    ensures r.mode == e.mode && r.entryActive == e.entryActive && r.entryArea == e.entryArea
    ensures r.isActive == e.isActive
  {
    var e1 := e.(isDirty := true, contentArea := W.Reload(lib, Text.Lines(content)));
    RefreshHasUnsaved(e1, app)
  }

  /**
    `exec_os_clipboard`. Copy and Cut push the widget's yank text to the OS
    clipboard, Cut after cutting from the buffer and marking both flags, so a
    failed write does not undo the cut. Paste of an empty clipboard text does
    nothing; paste the widget refuses is an error distinct from clipboard
    access failure; a successful paste marks both flags. Mode and focus never
    change.
  */
  function ExecOsClipboard(e: Editor, op: ClipboardOperation, lib: W.TextLib, clip: Clipboard): (r: Step<Response>)
    ensures !clip.opens ==> r == Step(e, clip, Err(ClipboardAccess))
    ensures r.result.Ok? ==> r.result.value == Handled
    ensures r.result.Err? && op != Paste ==> r.result.error == ClipboardAccess
    ensures r.editor.mode == e.mode && r.editor.entryActive == e.entryActive
    ensures r.editor.entryArea == e.entryArea && r.editor.isActive == e.isActive
    // Copy: text and flags untouched; the clipboard receives the yank text when writable.
    ensures op == Copy ==> r.editor.contentArea.lines == e.contentArea.lines
    ensures op == Copy ==> r.editor.isDirty == e.isDirty && r.editor.hasUnsaved == e.hasUnsaved
    ensures op == Copy && clip.opens ==> r.editor.contentArea == W.Copy(lib, e.contentArea)
    ensures op != Paste && clip.opens ==> (r.result.Ok? <==> clip.writable)
    ensures op != Paste && clip.opens && clip.writable ==> r.clipboard.text == r.editor.contentArea.yank
    ensures op != Paste && clip.opens ==>
              r.clipboard == (if clip.writable then clip.(text := r.editor.contentArea.yank) else clip)
    // Cut: a successful buffer cut marks both flags whatever happens to the write.
    ensures op == Cut && clip.opens ==> r.editor.contentArea == lib.cut(e.contentArea).0
    ensures op == Cut && clip.opens && lib.cut(e.contentArea).1 ==> r.editor.isDirty && r.editor.hasUnsaved
    ensures op == Cut && !lib.cut(e.contentArea).1 ==>
              r.editor.isDirty == e.isDirty && r.editor.hasUnsaved == e.hasUnsaved
    // Paste: never writes the clipboard.
    ensures op == Paste ==> r.clipboard == clip
    ensures op == Paste && clip.opens && !clip.readable ==> r == Step(e, clip, Err(ClipboardAccess))
    ensures op == Paste && clip.opens && clip.readable && clip.text == "" ==> r == Step(e, clip, Ok(Handled))
    ensures op == Paste && clip.opens && clip.readable && clip.text != "" ==>
              && r.editor.contentArea == lib.insertStr(e.contentArea, clip.text).0
              && (r.result.Ok? <==> lib.insertStr(e.contentArea, clip.text).1)
              && (r.result.Err? ==> r.result.error == PasteRejected)
              && (r.result.Ok? ==> r.editor.isDirty && r.editor.hasUnsaved)
              && (r.result.Err? ==> r.editor.isDirty == e.isDirty && r.editor.hasUnsaved == e.hasUnsaved)
    ensures MarksOrKeeps(e, r.editor)
  {
    if !clip.opens then Step(e, clip, Err(ClipboardAccess))
    else
      match op
      case Copy =>
        var e1 := e.(contentArea := W.Copy(lib, e.contentArea));
        WriteYank(e1, clip)
      case Cut =>
        var (ca, cut) := lib.cut(e.contentArea);
        var e1 := if cut then e.(contentArea := ca, isDirty := true, hasUnsaved := true)
                  else e.(contentArea := ca);
        WriteYank(e1, clip)
      case Paste =>
        match GetText(clip)
        case None => Step(e, clip, Err(ClipboardAccess))
        case Some(text) =>
          if |text| == 0 then Step(e, clip, Ok(Handled))
          else
            var (ca, inserted) := lib.insertStr(e.contentArea, text);
            if !inserted then Step(e.(contentArea := ca), clip, Err(PasteRejected))
            else Step(e.(contentArea := ca, isDirty := true, hasUnsaved := true), clip, Ok(Handled))
  }

  /** Pushes the buffer's yank text to the clipboard; a refused write is an access error. */
  function WriteYank(e: Editor, clip: Clipboard): (r: Step<Response>)
    ensures r.editor == e
    ensures r.result.Ok? <==> clip.writable
    ensures r.result.Ok? ==> r.result.value == Handled && r.clipboard.text == e.contentArea.yank
    ensures r.result.Err? ==> r.result.error == ClipboardAccess && r.clipboard == clip
  {
    var (c, written) := SetText(clip, e.contentArea.yank);
    Step(e, c, if written then Ok(Handled) else Err(ClipboardAccess))
  }
}

=== FILE: keys.dfy ===
/** Key events as the editor receives them (crossterm's `KeyCode` and `KeyModifiers`). */
module Keys {

  datatype KeyCode =
    | Char(c: char)
    | Enter | BackTab | Tab | Backspace | Delete | Esc
    | Left | Right | Up | Down | Home | End | PageUp | PageDown
    | F(n: nat)

  /** One flag of crossterm's `KeyModifiers` bit set. */
  datatype Modifier = Shift | Control | Alt | Super | Hyper | Meta

  /** A key press: the key and the set of modifiers held. */
  datatype Input = Input(code: KeyCode, modifiers: set<Modifier>)

  predicate IsArrowOrPageKey(code: KeyCode) {
    code in {Left, Right, Up, Down, Home, End, PageUp, PageDown}
  }

  /**
    The first dispatch tier: keys handed straight to the text widget as plain
    cursor movement, whatever the mode.
  */
  predicate IsDefaultNavigation(input: Input) {
    var hasControl := Control in input.modifiers;
    var hasAlt := Alt in input.modifiers;
    match input.code
    case Left | Right | Up | Down | Home | End | PageUp | PageDown => true
    case Char(c) =>
      if c in {'p', 'n', 'e', 'a', 'v'} then hasControl || hasAlt
      else if c in {'f', 'b'} then !hasControl && hasAlt
      else false
    case _ => false
  }

  /**
    The navigation tier, seen from the user's side: the navigation keys always
    qualify, the Emacs letters only under Control or Alt, `f`/`b` only under Alt
    without Control, and no key without Control or Alt other than the
    navigation keys qualifies.
  */
  lemma DefaultNavigationClassification(input: Input)
    ensures IsArrowOrPageKey(input.code) ==> IsDefaultNavigation(input)
    ensures Control !in input.modifiers && Alt !in input.modifiers ==>
              (IsDefaultNavigation(input) <==> IsArrowOrPageKey(input.code))
    ensures input.code in {Char('f'), Char('b')} ==>
              (IsDefaultNavigation(input) <==> Alt in input.modifiers && Control !in input.modifiers)
    ensures input.code in {Char('p'), Char('n'), Char('e'), Char('a'), Char('v')} ==>
              (IsDefaultNavigation(input) <==> Control in input.modifiers || Alt in input.modifiers)
    ensures (input.code.Char? && input.code.c !in "pneavfb") ==> !IsDefaultNavigation(input)
  {
  }
}

=== FILE: properties.dfy ===
/**
  Properties of the editor that relate several operations or hold over
  sequences of them.
*/
module EditorProperties {
  import opened Results
  import opened Keys
  import Text
  import Clock
  import W = Widget
  import opened OsClipboard
  import opened Store
  import opened ModalEditor
  import opened KeyDispatch

  /** Visual mode and the widget's selection flag agree. */
  predicate Coupled(e: Editor) {
    e.mode == Visual <==> e.contentArea.selecting
  }

  /** Asking twice for the same mode is asking once. */
  lemma SetEditorModeIdempotent(e: Editor, m: Mode)
    ensures SetEditorMode(SetEditorMode(e, m), m) == SetEditorMode(e, m)
  {
  }

  /**
    Every mode change keeps Visual mode and the selection in step, except
    Insert to Visual, which the transition table leaves without a selection.
  */
  lemma SetEditorModeKeepsCoupling(e: Editor, m: Mode)
    requires Coupled(e)
    ensures !(e.mode == Insert && m == Visual) ==> Coupled(SetEditorMode(e, m))
    ensures e.mode == Insert && m == Visual ==> !SetEditorMode(e, m).contentArea.selecting
  {
  }

  /** Deactivation never leaves a stale Visual selection behind. */
  lemma DeactivationLeavesNoVisual(e: Editor)
    requires Coupled(e)
    ensures Coupled(SetActive(e, false))
    ensures SetActive(e, false).mode != Visual
  {
  }

  /** After loading an existing entry the buffer reads back as the stored text exactly when that text is canonical. */
  lemma LoadedContentReadsBack(e: Editor, id: u32, app: App, lib: W.TextLib)
    requires id in app.entries
    ensures (GetContent(SetCurrentEntry(e, Some(id), app, lib)) == app.entries[id].content)
              <==> Text.Canonical(app.entries[id].content)
  {
    var c := app.entries[id].content;
    Text.JoinLinesIffCanonical(c);
  }

  /** Loading an absent entry, or none, leaves one empty line, whose content is the empty text. */
  lemma LoadingNothingIsEmpty(e: Editor, id: Option<u32>, app: App, lib: W.TextLib)
    requires id.None? || id.value !in app.entries
    ensures GetContent(SetCurrentEntry(e, id, app, lib)) == ""
  {
  }

  /**
    With a canonical stored text, a dirty editor whose buffer has no line feed
    inside a line (as the widget keeps it) is unsaved exactly when its lines
    differ from the lines the stored text loads as: typing and then deleting
    back to the original clears the flag again.
  */
  lemma UnsavedIffLinesDiffer(e: Editor, app: App)
    requires e.isDirty
    requires GetCurrentEntry(app).Some? && Text.Canonical(GetCurrentEntry(app).value.content)
    requires |e.contentArea.lines| >= 1 && Text.NoLineFeeds(e.contentArea.lines)
    ensures (RefreshHasUnsaved(e, app).hasUnsaved)
              <==> e.contentArea.lines != LoadedLines(GetCurrentEntry(app).value.content)
  {
    Text.JoinEqualsIffLoaded(e.contentArea.lines, GetCurrentEntry(app).value.content);
  }

  /**
    Replacing the buffer with the current entry's own stored text leaves the
    editor saved when that text is canonical, and unsaved when it is not.
  */
  lemma ReloadingStoredText(e: Editor, app: App, lib: W.TextLib)
    requires GetCurrentEntry(app).Some?
    ensures var c := GetCurrentEntry(app).value.content;
            SetEntryContent(e, c, app, lib).hasUnsaved <==> !Text.Canonical(c)
  {
    Text.JoinLinesIffCanonical(GetCurrentEntry(app).value.content);
  }

  /** A key without modifiers. */
  function Key(c: char): Input {
    Input(Char(c), {})
  }

  /**
    Loading the current entry and pressing `h` marks the editor dirty, and it
    is then unsaved exactly when the stored text is not canonical (for
    instance when it ends with a line feed), though nothing was edited.
  */
  lemma MovingAfterLoad(e: Editor, id: u32, app: App, lib: W.TextLib, clip: Clipboard)
    requires app.currentId == Some(id) && id in app.entries
    ensures var loaded := SetCurrentEntry(e, Some(id), app, lib);
            var r := HandleInput(loaded, Key('h'), app, lib, clip);
            && r.result == Ok(Handled) && r.clipboard == clip
            && r.editor.contentArea.lines == loaded.contentArea.lines
            && r.editor.isDirty
            && (r.editor.hasUnsaved <==> !Text.Canonical(app.entries[id].content))
  {
    var loaded := SetCurrentEntry(e, Some(id), app, lib);
    assert BoundIn(Key('h'), MotionBindings);
    Text.JoinLinesIffCanonical(app.entries[id].content);
  }

  /**
    The motion and scroll keys of the Vim table never change the text, in any
    mode, yet they mark the editor dirty; the unsaved flag then compares the
    unchanged buffer with the stored text.
  */
  lemma MotionKeysKeepText(e: Editor, input: Input, app: App, lib: W.TextLib, clip: Clipboard)
    requires GetCurrentEntry(app).Some? && !e.entryActive
    requires BoundIn(input, MotionBindings) && !IsDefaultNavigation(input)
    ensures var r := HandleInput(e, input, app, lib, clip);
            && r.result == Ok(Handled) && r.clipboard == clip
            && r.editor.contentArea.lines == e.contentArea.lines
            && r.editor.isDirty
            && (r.editor.hasUnsaved <==> Unsaved(app, GetContent(e)))
            && (e.mode != Visual || e.contentArea.selecting ==> r.editor.mode == e.mode)
  {
    MotionKeyMovesOnlyTheView(e, input, app.syncOsClipboard, lib, clip);
  }

  /** A motion or scroll key reaches the Vim table in every mode, and there moves only the view. */
  lemma MotionKeyMovesOnlyTheView(e: Editor, input: Input, sync: bool, lib: W.TextLib, clip: Clipboard)
    requires BoundIn(input, MotionBindings) && !IsDefaultNavigation(input)
    ensures var s := DispatchContentKey(e, input, sync, lib, clip);
            && s.result.Ok? && s.clipboard == clip
            && s.editor == e.(contentArea := s.editor.contentArea)
            && s.editor.contentArea.lines == e.contentArea.lines
            && s.editor.contentArea.selecting == e.contentArea.selecting
  {
    var (c, ctrl) := Binding(input).value;
    if e.mode == Visual {
      if !ctrl {
        assert c in {'h', 'j', 'k', 'l', 'w', 'e', 'b', '^', '$'};
        assert input.code !in {Char('d'), Char('y'), Char('c')};
      } else {
        assert Control in input.modifiers;
      }
    }
    assert DispatchContentKey(e, input, sync, lib, clip) == HandleVimMotions(e, input, sync, lib, clip);
  }

  /** The widget moves the cursor for every default-navigation key and edits nothing. */
  ghost predicate NavigationOnlyMoves(lib: W.TextLib) {
    forall w: W.TextArea, input: Input {:trigger lib.input(w, input)} :: IsDefaultNavigation(input) ==>
      lib.input(w, input).0.lines == w.lines && lib.input(w, input).0.selecting == w.selecting
  }

  /**
    For a widget whose navigation keys only move the cursor, the navigation
    tier keeps the text and the mode, and still marks the editor dirty.
  */
  lemma NavigationKeysKeepText(e: Editor, input: Input, app: App, lib: W.TextLib, clip: Clipboard)
    requires NavigationOnlyMoves(lib)
    requires GetCurrentEntry(app).Some? && !e.entryActive && Coupled(e)
    requires IsDefaultNavigation(input)
    ensures var r := HandleInput(e, input, app, lib, clip);
            && r.result == Ok(Handled) && r.clipboard == clip
            && r.editor.contentArea.lines == e.contentArea.lines
            && r.editor.mode == e.mode
            && r.editor.isDirty
  {
    assert input.code != BackTab;
    var w := lib.input(e.contentArea, input);
    assert w.0.selecting == e.contentArea.selecting;
  }

  /**
    Control+f and Control+b skip the navigation tier and reach the page
    scroll of the Vim table, which moves only the view; Alt+f and Alt+b are
    navigation keys handed to the widget.
  */
  lemma ControlAndAltPageKeys(e: Editor, app: App, lib: W.TextLib, clip: Clipboard)
    requires GetCurrentEntry(app).Some? && !e.entryActive && e.mode == Normal
    ensures HandleInput(e, Input(Char('f'), {Control}), app, lib, clip).editor.contentArea
              == W.Scroll(lib, e.contentArea, W.PageDown)
    ensures HandleInput(e, Input(Char('b'), {Control}), app, lib, clip).editor.contentArea
              == W.Scroll(lib, e.contentArea, W.PageUp)
    ensures HandleInput(e, Input(Char('f'), {Alt}), app, lib, clip).editor.contentArea
              == lib.input(e.contentArea, Input(Char('f'), {Alt})).0
    ensures HandleInput(e, Input(Char('b'), {Alt}), app, lib, clip).editor.contentArea
              == lib.input(e.contentArea, Input(Char('b'), {Alt})).0
  {
    assert BoundIn(Input(Char('f'), {Control}), MotionBindings);
    assert BoundIn(Input(Char('b'), {Control}), MotionBindings);
    assert !IsDefaultNavigation(Input(Char('f'), {Control}));
    assert !IsDefaultNavigation(Input(Char('b'), {Control}));
  }

  /**
    BackTab twice gives the focus back to where it was. Coming back to the
    content forces Normal mode without cancelling the selection, so a Visual
    selection survives into Normal mode.
  */
  lemma BackTabTwice(e: Editor, app: App, lib: W.TextLib, clip: Clipboard)
    requires GetCurrentEntry(app).Some?
    ensures var once := HandleInput(e, Input(BackTab, {}), app, lib, clip).editor;
            var twice := HandleInput(once, Input(BackTab, {}), app, lib, clip).editor;
            && twice.entryActive == e.entryActive
            && twice.contentArea == e.contentArea
            && twice.mode == Normal
            && (e.mode == Visual && e.contentArea.selecting && !e.entryActive ==>
                  twice.mode == Normal && twice.contentArea.selecting)
  {
  }

  /** The stamped line of a note reads back as the submission time, a space and the note. */
  lemma SubmittedLineReadsBack(e: Editor, now: Clock.Time, lib: W.TextLib)
    requires !Text.AllWhitespace(EntryText(e))
    ensures var r := SubmitEntry(e, now, lib);
            var last := r.contentArea.lines[|r.contentArea.lines| - 1];
            && Clock.ParseHM(last[..5]) == Some(now)
            && last[5] == ' '
            && last[6..] == EntryText(e)
  {
    var r := SubmitEntry(e, now, lib);
    var last := r.contentArea.lines[|r.contentArea.lines| - 1];
    assert last == Clock.FormatHM(now) + " " + EntryText(e);
    assert last[..5] == Clock.FormatHM(now);
    Clock.FormatThenParse(now);
  }

  /**
    A note submitted into an empty buffer lands after the buffer's one empty
    line, so the content starts with a line feed.
  */
  lemma FirstNoteFollowsEmptyLine(e: Editor, now: Clock.Time, lib: W.TextLib)
    requires !Text.AllWhitespace(EntryText(e)) && e.contentArea.lines == [""]
    ensures GetContent(SubmitEntry(e, now, lib)) == "\n" + StampedLine(now, EntryText(e))
  {
    var lines := SubmitEntry(e, now, lib).contentArea.lines;
    var line := StampedLine(now, EntryText(e));
    assert lines == ["", line] by {
      assert |lines| == 2 && lines[..1] == [""] && lines[1] == line;
      assert lines[0] == lines[..1][0];
    }
    Text.JoinAfterEmptyLine(line);
  }

  /**
    Plain Enter in the entry box is not a submit: it goes to the box like any
    other key, and the buffer is untouched.
  */
  lemma PlainEnterDoesNotSubmit(e: Editor, app: App, now: Clock.Time, lib: W.TextLib, clip: Clipboard)
    requires e.entryActive
    ensures var r := HandleInputPrioritized(e, Input(Enter, {}), app, now, lib, clip);
            r.editor.contentArea == e.contentArea && r.editor.entryArea == lib.input(e.entryArea, Input(Enter, {})).0
  {
  }

  /**
    Visual mode is prioritized, yet the prioritized path only consumes keys in
    the entry box or in Insert mode: in Visual mode it reports NotFound and the
    key goes on to the general path.
  */
  lemma PrioritizedRouting(e: Editor, input: Input, app: App, now: Clock.Time, lib: W.TextLib, clip: Clipboard)
    requires !e.entryActive
    ensures var r := HandleInputPrioritized(e, input, app, now, lib, clip);
            && (!IsPrioritized(e) ==> r == Step(e, clip, Ok(NotFound)))
            && (e.mode == Visual ==> IsPrioritized(e) && r == Step(e, clip, Ok(NotFound)))
            && (e.mode == Insert ==> IsPrioritized(e) && r.result != Ok(NotFound))
  {
  }

  /**
    With clipboard sync on, Visual `d` whose cut succeeds but whose clipboard
    write fails ends in an error after the cut: the editor is left in Visual
    mode with no selection, since the error skips the check that would have
    returned it to Normal mode.
  */
  lemma FailedWriteAfterVisualCut(e: Editor, app: App, lib: W.TextLib, clip: Clipboard)
    requires GetCurrentEntry(app).Some? && app.syncOsClipboard
    requires !e.entryActive && e.mode == Visual
    requires clip.opens && !clip.writable
    requires lib.cut(e.contentArea).1 && !lib.cut(e.contentArea).0.selecting
    ensures var r := HandleInput(e, Key('d'), app, lib, clip);
            && r.result == Err(ClipboardAccess)
            && r.editor.mode == Visual && !r.editor.contentArea.selecting
            && r.editor.isDirty && r.editor.hasUnsaved
  {
  }

  /**
    `x` copies to the OS clipboard even with sync off; when the clipboard
    cannot be opened the character is already deleted, the key fails, and the
    dirty flags are left as they were.
  */
  lemma DeleteCharWithoutClipboard(e: Editor, app: App, lib: W.TextLib, clip: Clipboard)
    requires GetCurrentEntry(app).Some? && !app.syncOsClipboard
    requires !e.entryActive && e.mode == Normal && !clip.opens
    ensures var r := HandleInput(e, Key('x'), app, lib, clip);
            && r.result == Err(ClipboardAccess)
            && r.editor.contentArea == lib.deleteNextChar(e.contentArea).0
            && r.editor.isDirty == e.isDirty && r.editor.hasUnsaved == e.hasUnsaved
  {
    assert BoundIn(Key('x'), CopyingBindings);
    assert !BoundIn(Key('x'), MotionBindings);
  }

  /**
    Visual `y` copies without editing and ends in Normal mode with the
    selection gone, with or without clipboard sync, whenever it succeeds.
  */
  lemma VisualYank(e: Editor, app: App, lib: W.TextLib, clip: Clipboard)
    requires GetCurrentEntry(app).Some? && !e.entryActive && e.mode == Visual
    ensures var r := HandleInput(e, Key('y'), app, lib, clip);
            r.result.Ok? ==>
              && r.editor.mode == Normal && !r.editor.contentArea.selecting
              && r.editor.contentArea.lines == e.contentArea.lines
    ensures !app.syncOsClipboard ==> HandleInput(e, Key('y'), app, lib, clip).result.Ok?
  {
    assert !IsDefaultNavigation(Key('y'));
  }

  /**
    Visual `c` with sync on copies rather than cuts: the text stays, and the
    editor enters Insert mode with the selection cancelled.
  */
  lemma VisualChangeWithSyncCopies(e: Editor, app: App, lib: W.TextLib, clip: Clipboard)
    requires GetCurrentEntry(app).Some? && app.syncOsClipboard
    requires !e.entryActive && e.mode == Visual && clip.opens && clip.writable
    ensures var r := HandleInput(e, Key('c'), app, lib, clip);
            && r.result == Ok(Handled)
            && r.editor.contentArea.lines == e.contentArea.lines
            && r.editor.mode == Insert && !r.editor.contentArea.selecting
  {
    assert !IsDefaultNavigation(Key('c'));
  }

  /**
    A key that no tier binds leaves the buffer and the mode as they were; it
    only marks the editor dirty and recomputes the unsaved flag.
  */
  lemma UnboundKeyOnlyMarksDirty(e: Editor, input: Input, app: App, lib: W.TextLib, clip: Clipboard)
    requires GetCurrentEntry(app).Some? && !e.entryActive && input.code != BackTab
    requires !IsDefaultNavigation(input) && !BoundIn(input, VimBindings)
    requires e.mode == Visual ==> input.modifiers != {} || input.code !in {Char('d'), Char('y'), Char('c')}
    requires e.mode == Visual ==> e.contentArea.selecting
    ensures var r := HandleInput(e, input, app, lib, clip);
            && r.result == Ok(Handled) && r.clipboard == clip
            && r.editor.contentArea == e.contentArea && r.editor.mode == e.mode
            && r.editor.isDirty && (r.editor.hasUnsaved <==> Unsaved(app, GetContent(e)))
  {
  }

  /**
    What Copy puts on the OS clipboard is what a later Paste inserts: the yank
    text of the selection just copied, through the widget's `insert_str`, or
    nothing at all when that text is empty.
  */
  lemma CopyThenPaste(e: Editor, target: Editor, lib: W.TextLib, clip: Clipboard)
    requires clip.opens && clip.readable && clip.writable
    ensures var copied := ExecOsClipboard(e, Copy, lib, clip);
            var yank := W.Copy(lib, e.contentArea).yank;
            var pasted := ExecOsClipboard(target, Paste, lib, copied.clipboard);
            && copied.result == Ok(Handled)
            && copied.clipboard.text == yank
            && (yank == "" ==> pasted == Step(target, copied.clipboard, Ok(Handled)))
            && (yank != "" ==> pasted.editor.contentArea == lib.insertStr(target.contentArea, yank).0)
  {
    SetThenGet(clip, W.Copy(lib, e.contentArea).yank);
  }

  /** The unsaved flag is only ever set on a dirty editor. */
  predicate UnsavedOnlyWhenDirty(e: Editor) {
    e.hasUnsaved ==> e.isDirty
  }

  /** A new, freshly loaded or freshly replaced editor keeps the unsaved flag under the dirty flag. */
  lemma LifecycleKeepsUnsavedOnlyWhenDirty(e: Editor, id: Option<u32>, content: string, app: App, lib: W.TextLib)
    requires UnsavedOnlyWhenDirty(e)
    ensures UnsavedOnlyWhenDirty(NewEditor())
    ensures UnsavedOnlyWhenDirty(SetCurrentEntry(e, id, app, lib))
    ensures UnsavedOnlyWhenDirty(SetEntryContent(e, content, app, lib))
    ensures forall m: Mode :: UnsavedOnlyWhenDirty(SetEditorMode(e, m))
    ensures forall active: bool :: UnsavedOnlyWhenDirty(SetActive(e, active))
  {
  }

  /** The prioritized path never leaves the editor unsaved but clean, whatever the key and however it ends. */
  lemma PrioritizedKeepsUnsavedOnlyWhenDirty(e: Editor, input: Input, app: App, now: Clock.Time,
                                             lib: W.TextLib, clip: Clipboard)
    requires UnsavedOnlyWhenDirty(e)
    ensures UnsavedOnlyWhenDirty(HandleInputPrioritized(e, input, app, now, lib, clip).editor)
  {
  }

  /** Nor does the general path, on success or after a clipboard error. */
  lemma InputKeepsUnsavedOnlyWhenDirty(e: Editor, input: Input, app: App, lib: W.TextLib, clip: Clipboard)
    requires UnsavedOnlyWhenDirty(e)
    ensures UnsavedOnlyWhenDirty(HandleInput(e, input, app, lib, clip).editor)
  {
  }
}

=== FILE: results.dfy ===
/** Failure-carrying values shared by the editor model. */
module Results {

  /** An optional value, as Rust's `Option`. */
  datatype Option<+T> = None | Some(value: T)

  /** The two ways an editor operation can fail. */
  datatype EditorError =
    | ClipboardAccess   // the operating-system clipboard could not be opened, read or written
    | PasteRejected     // the text widget refused the pasted text

  /** The outcome of a fallible editor operation, as `anyhow::Result<T>`. */
  datatype Result<+T> = Ok(value: T) | Err(error: EditorError)
}

=== FILE: store.dfy ===
/**
  The part of the application the editor reads: the journal entries by id, the
  id of the current entry, and the clipboard-sync setting. The data provider
  behind it (the storage backend) is not part of this model; the editor only
  ever reads a snapshot of it.
*/
module Store {
  import opened Results

  newtype u32 = x: int | 0 <= x < 0x1_0000_0000

  /** A journal entry; only its text matters to the editor. */
  datatype Entry = Entry(content: string)

  datatype App = App(entries: map<u32, Entry>, currentId: Option<u32>, syncOsClipboard: bool)

  /** `app.get_entry(id)`. */
  function GetEntry(app: App, id: u32): (r: Option<Entry>)
    ensures r.Some? <==> id in app.entries
    ensures r.Some? ==> r.value == app.entries[id]
  {
    if id in app.entries then Some(app.entries[id]) else None
  }

  /** `app.get_current_entry()`: the entry the current id names, if it exists. */
  function GetCurrentEntry(app: App): (r: Option<Entry>)
    ensures r.Some? <==> app.currentId.Some? && app.currentId.value in app.entries
  {
    match app.currentId
    case Some(id) => GetEntry(app, id)
    case None => None
  }
}

=== FILE: text.dfy ===
/**
  String helpers the editor borrows from Rust's standard library:
  `str::lines`, `join("\n")`, `str::trim` and `char::is_whitespace`.
*/
module Text {

  /** Rust's `char::is_whitespace`: the Unicode White_Space property. */
  predicate IsWhitespace(c: char) {
    || ('\U{0009}' <= c <= '\U{000D}')
    || c == '\U{0020}'
    || c == '\U{0085}'
    || c == '\U{00A0}'
    || c == '\U{1680}'
    || ('\U{2000}' <= c <= '\U{200A}')
    || c == '\U{2028}'
    || c == '\U{2029}'
    || c == '\U{202F}'
    || c == '\U{205F}'
    || c == '\U{3000}'
  }

  predicate AllWhitespace(s: string) {
    forall i :: 0 <= i < |s| ==> IsWhitespace(s[i])
  }

  /** Drops leading whitespace: the result is the suffix starting at the first non-blank character. */
  function TrimStart(s: string): (r: string)
    ensures |r| <= |s| && r == s[|s| - |r|..]
    ensures forall i :: 0 <= i < |s| - |r| ==> IsWhitespace(s[i])
    ensures |r| == 0 || !IsWhitespace(r[0])
    decreases |s|
  {
    if |s| > 0 && IsWhitespace(s[0]) then
      var t := s[1..];
      var r := TrimStart(t);
      assert forall i :: 1 <= i < |s| - |r| ==> s[i] == t[i - 1];
      r
    else s
  }

  /** Drops trailing whitespace: the result is the prefix ending at the last non-blank character. */
  function TrimEnd(s: string): (r: string)
    ensures |r| <= |s| && r == s[..|r|]
    ensures forall i :: |r| <= i < |s| ==> IsWhitespace(s[i])
    ensures |r| == 0 || !IsWhitespace(r[|r| - 1])
    decreases |s|
  {
    if |s| > 0 && IsWhitespace(s[|s| - 1]) then
      var t := s[..|s| - 1];
      var r := TrimEnd(t);
      assert forall i :: |r| <= i < |s| - 1 ==> s[i] == t[i];
      r
    else s
  }

  /** Rust's `str::trim`. */
  function Trim(s: string): string {
    TrimEnd(TrimStart(s))
  }

  /** `s.trim().is_empty()` holds exactly when every character of `s` is whitespace. */
  lemma TrimEmptyIffBlank(s: string)
    ensures |Trim(s)| == 0 <==> AllWhitespace(s)
  {
    var t := TrimStart(s);
    var k := |s| - |t|;
    if |Trim(s)| != 0 {
      assert !IsWhitespace(s[k]);
    }
  }

  /** Index of the first occurrence of `c`, or `|s|` when there is none. */
  function IndexOf(s: string, c: char): (i: nat)
    ensures i <= |s|
    ensures i < |s| ==> s[i] == c
    ensures forall k :: 0 <= k < i ==> s[k] != c
  {
    if |s| == 0 then 0
    else if s[0] == c then 0
    else 1 + IndexOf(s[1..], c)
  }

  /** Removes one trailing carriage return, as `str::lines` does before a line feed. */
  function StripCr(l: string): string {
    if |l| > 0 && l[|l| - 1] == '\r' then l[..|l| - 1] else l
  }

  /**
    Rust's `str::lines`: split at every line feed, drop one carriage return
    immediately before a line feed, and produce no final empty line when the
    text ends with a line feed. The empty text has no lines.
  */
  function Lines(s: string): seq<string>
    decreases |s|
  {
    if |s| == 0 then []
    else
      var i := IndexOf(s, '\n');
      if i == |s| then [s]
      else [StripCr(s[..i])] + Lines(s[i + 1..])
  }

  /** `lines.join("\n")`. */
  function Join(ls: seq<string>): string
    decreases |ls|
  {
    if |ls| == 0 then ""
    else if |ls| == 1 then ls[0]
    else ls[0] + "\n" + Join(ls[1..])
  }

  /**
    A text that `str::lines` followed by `join("\n")` reproduces: it does not end
    with a line feed and has no carriage return right before a line feed.
  */
  predicate Canonical(s: string) {
    && (|s| == 0 || s[|s| - 1] != '\n')
    && forall i :: 1 <= i < |s| && s[i] == '\n' ==> s[i - 1] != '\r'
  }

  lemma LinesOfNonEmpty(s: string)
    ensures |Lines(s)| == 0 <==> |s| == 0
  {
  }

  lemma NoLineFeedInPrefix(s: string, i: nat)
    requires i <= |s|
    requires forall k :: 0 <= k < i ==> s[k] != '\n'
    ensures forall k :: 0 <= k < |StripCr(s[..i])| ==> StripCr(s[..i])[k] != '\n'
  {
  }

  /** Canonical text with a line feed before its end splits into a canonical head and tail. */
  lemma CanonicalAtLineFeed(s: string, i: nat)
    requires i + 1 < |s| && s[i] == '\n'
    requires forall k :: 0 <= k < i ==> s[k] != '\n'
    ensures Canonical(s) <==> StripCr(s[..i]) == s[..i] && Canonical(s[i + 1..])
  {
    var pre, rest := s[..i], s[i + 1..];
    if Canonical(s) {
      if i >= 1 {
        assert pre[|pre| - 1] == s[i - 1];
      }
      forall j | 1 <= j < |rest| && rest[j] == '\n'
        ensures rest[j - 1] != '\r'
      {
        assert s[i + 1 + j] == rest[j];
        assert s[i + 1 + j - 1] == rest[j - 1];
      }
      assert rest[|rest| - 1] == s[|s| - 1];
    }
    if StripCr(pre) == pre && Canonical(rest) {
      forall j | 1 <= j < |s| && s[j] == '\n'
        ensures s[j - 1] != '\r'
      {
        if j == i {
          assert pre[|pre| - 1] == s[j - 1];
        } else if j == i + 1 {
          assert s[j - 1] == '\n';
        } else {
          assert rest[j - i - 1] == s[j];
          assert rest[j - i - 2] == s[j - 1];
        }
      }
      assert s[|s| - 1] == rest[|rest| - 1];
    }
  }

  /** The first line feed of `x + "\n" + rest` is the one after `x` when `x` has none. */
  lemma FirstLineFeedAfter(x: string, rest: string)
    requires forall k :: 0 <= k < |x| ==> x[k] != '\n'
    ensures IndexOf(x + "\n" + rest, '\n') == |x|
  {
    var t := x + "\n" + rest;
    assert t[|x|] == '\n';
    assert forall k :: 0 <= k < |x| ==> t[k] == x[k];
  }

  /** Two texts that each continue with a line feed after a line-feed-free head agree on head and tail. */
  lemma SplitAtLineFeedUnique(a: string, b: string, pre: string, rest: string)
    requires forall k :: 0 <= k < |a| ==> a[k] != '\n'
    requires forall k :: 0 <= k < |pre| ==> pre[k] != '\n'
    requires a + "\n" + b == pre + "\n" + rest
    ensures a == pre && b == rest
  {
    var s := pre + "\n" + rest;
    FirstLineFeedAfter(a, b);
    FirstLineFeedAfter(pre, rest);
    assert a == s[..|a|];
    assert pre == s[..|pre|];
    assert b == s[|a| + 1..];
    assert rest == s[|pre| + 1..];
  }

  /** Splitting into lines and joining them again gives back the text exactly when it is canonical. */
  lemma {:induction false} JoinLinesIffCanonical(s: string)
    ensures Join(Lines(s)) == s <==> Canonical(s)
    decreases |s|
  {
    if |s| == 0 {
    } else {
      var i := IndexOf(s, '\n');
      if i == |s| {
        assert Lines(s) == [s];
      } else {
        var pre, rest := s[..i], s[i + 1..];
        assert s == pre + "\n" + rest;
        var a := StripCr(pre);
        if |rest| == 0 {
          assert Lines(s) == [a] + [];
          assert Join(Lines(s)) == a;
          assert s[|s| - 1] == '\n';
        } else {
          LinesOfNonEmpty(rest);
          var tail := Lines(rest);
          assert Lines(s) == [a] + tail;
          assert ([a] + tail)[1..] == tail;
          var b := Join(tail);
          assert Join(Lines(s)) == a + "\n" + b;
          JoinLinesIffCanonical(rest);
          CanonicalAtLineFeed(s, i);
          if Join(Lines(s)) == s {
            NoLineFeedInPrefix(s, i);
            SplitAtLineFeedUnique(a, b, pre, rest);
          }
        }
      }
    }
  }

  /** A buffer holds at least one line: no lines read as one empty line. */
  function AtLeastOneLine(ls: seq<string>): (r: seq<string>)
    ensures |r| >= 1
    ensures |ls| > 0 ==> r == ls
    ensures Join(r) == Join(ls)
  {
    if |ls| == 0 then [""] else ls
  }

  /**
    Lines a widget can hold and `str::lines` can give back: none contains a
    line feed, none but the last ends with a carriage return, and the last is
    not empty unless it is the only, empty, line.
  */
  predicate WellFormedBuffer(ls: seq<string>) {
    && |ls| >= 1
    && NoLineFeeds(ls)
    && (forall i :: 0 <= i < |ls| - 1 ==> StripCr(ls[i]) == ls[i])
    && (ls[|ls| - 1] != "" || ls == [""])
  }

  /** No line of `ls` contains a line feed, as holds for every buffer the widget keeps. */
  predicate NoLineFeeds(ls: seq<string>) {
    forall i, k :: 0 <= i < |ls| && 0 <= k < |ls[i]| ==> ls[i][k] != '\n'
  }

  /**
    Lines whose join is canonical are well formed: a trailing empty line would
    make the join end with a line feed, and a carriage return ending an inner
    line would sit right before one.
  */
  lemma {:induction false} CanonicalJoinIsWellFormed(ls: seq<string>)
    requires |ls| >= 1 && NoLineFeeds(ls) && Canonical(Join(ls))
    ensures WellFormedBuffer(ls)
    decreases |ls|
  {
    if |ls| > 1 {
      var head, tail := ls[0], ls[1..];
      var t := Join(tail);
      var s := head + "\n" + t;
      assert Join(ls) == s;
      assert forall k :: 0 <= k < |head| ==> s[k] == ls[0][k];
      assert s[..|head|] == head && s[|head| + 1..] == t;
      CanonicalAtLineFeed(s, |head|);
      assert NoLineFeeds(tail) by {
        forall i, k | 0 <= i < |tail| && 0 <= k < |tail[i]|
          ensures tail[i][k] != '\n'
        {
          assert tail[i] == ls[i + 1];
        }
      }
      CanonicalJoinIsWellFormed(tail);
      assert tail != [""];
      forall i | 0 <= i < |ls| - 1
        ensures StripCr(ls[i]) == ls[i]
      {
        if i > 0 {
          assert ls[i] == tail[i - 1];
        }
      }
      assert ls[|ls| - 1] == tail[|tail| - 1];
    }
  }

  /** Joining lines and splitting the result gives the lines back. */
  lemma {:induction false} LinesOfJoin(ls: seq<string>)
    requires |ls| >= 1 && ls[|ls| - 1] != ""
    requires NoLineFeeds(ls)
    requires forall i :: 0 <= i < |ls| - 1 ==> StripCr(ls[i]) == ls[i]
    ensures Lines(Join(ls)) == ls
    decreases |ls|
  {
    var head := ls[0];
    assert forall k :: 0 <= k < |head| ==> head[k] != '\n' by {
      forall k | 0 <= k < |head|
        ensures head[k] != '\n'
      {
        assert ls[0][k] == head[k];
      }
    }
    if |ls| == 1 {
      assert IndexOf(head, '\n') == |head|;
    } else {
      var tail := ls[1..];
      assert NoLineFeeds(tail) by {
        forall i, k | 0 <= i < |tail| && 0 <= k < |tail[i]|
          ensures tail[i][k] != '\n'
        {
          assert tail[i] == ls[i + 1];
        }
      }
      assert forall i :: 0 <= i < |tail| - 1 ==> StripCr(tail[i]) == tail[i] by {
        forall i | 0 <= i < |tail| - 1
          ensures StripCr(tail[i]) == tail[i]
        {
          assert tail[i] == ls[i + 1];
        }
      }
      LinesOfJoin(tail);
      assert Join(ls) == head + "\n" + Join(tail);
      LinesOfLineThenRest(head, Join(tail));
      assert [head] + tail == ls;
    }
  }

  /** A line-feed-free, carriage-return-free line followed by a line feed reads as that line, then the rest. */
  lemma LinesOfLineThenRest(head: string, rest: string)
    requires forall k :: 0 <= k < |head| ==> head[k] != '\n'
    requires StripCr(head) == head
    ensures Lines(head + "\n" + rest) == [head] + Lines(rest)
  {
    var s := head + "\n" + rest;
    FirstLineFeedAfter(head, rest);
    assert s[..|head|] == head;
    assert s[|head| + 1..] == rest;
  }

  /** A line after one empty line joins to a line feed followed by that line. */
  lemma JoinAfterEmptyLine(line: string)
    ensures Join(["", line]) == "\n" + line
  {
    assert ["", line][1..] == [line];
  }

  /** A canonical text, loaded into a buffer and joined again, is the same text. */
  lemma LoadedJoinsBack(c: string)
    requires Canonical(c)
    ensures Join(AtLeastOneLine(Lines(c))) == c
  {
    JoinLinesIffCanonical(c);
  }

  /** A well-formed buffer, joined and loaded again, holds the same lines. */
  lemma WellFormedReloads(ls: seq<string>)
    requires WellFormedBuffer(ls)
    ensures AtLeastOneLine(Lines(Join(ls))) == ls
  {
    if ls != [""] {
      LinesOfJoin(ls);
    }
  }

  /** For a canonical stored text, the buffer's content equals it exactly when the buffer holds its lines. */
  lemma JoinEqualsIffLoaded(ls: seq<string>, c: string)
    requires |ls| >= 1 && NoLineFeeds(ls) && Canonical(c)
    ensures Join(ls) == c <==> ls == AtLeastOneLine(Lines(c))
  {
    LoadedJoinsBack(c);
    if Join(ls) == c {
      CanonicalJoinIsWellFormed(ls);
      WellFormedReloads(ls);
    }
  }
}

=== FILE: widget.dfy ===
/**
  The multi-line text widget the editor is built on (`tui_textarea::TextArea`),
  seen from the editor: its lines, whether a selection is active, the yank
  text, and state the editor never inspects (cursor, viewport, undo history).

  The widget's own algorithms are not part of this model. The operations whose
  effect the editor does not fix are the fields of a `TextLib`, an arbitrary
  total function each; every property proved about the editor holds for every
  `TextLib`. The structure of the model still fixes three things: cursor
  motions and scrolling change only the hidden view state, `copy` changes only
  the selection flag and the yank text, and selection start and cancel change
  only the selection flag.
*/
module Widget {
  import Keys
  import Text

  /** Widget state that the editor never reads: cursor, viewport and undo history. */
  datatype View = View(row: nat, col: nat, top: nat, history: seq<seq<string>>)

  datatype TextArea = TextArea(lines: seq<string>, selecting: bool, yank: string, view: View)

  datatype CursorMove = Back | Forward | Up | Down | WordForward | WordBack | Head | End | Bottom

  datatype Scrolling = HalfPageDown | HalfPageUp | PageDown | PageUp

  /**
    The widget operations whose results the editor does not control. Each one
    that reports success returns it as the second component, as the widget's
    `bool` return values do.
  */
  datatype TextLib = TextLib(
    input: (TextArea, Keys.Input) -> (TextArea, bool),
    moveCursor: (TextArea, CursorMove) -> View,
    scroll: (TextArea, Scrolling) -> View,
    copy: TextArea -> (bool, string),
    cut: TextArea -> (TextArea, bool),
    paste: TextArea -> (TextArea, bool),
    insertStr: (TextArea, string) -> (TextArea, bool),
    insertNewline: TextArea -> TextArea,
    deleteLineByEnd: TextArea -> (TextArea, bool),
    deleteNextChar: TextArea -> (TextArea, bool),
    undo: TextArea -> (TextArea, bool),
    redo: TextArea -> (TextArea, bool))

  const InitialView := View(0, 0, 0, [])

  /** `TextArea::new(lines)`: the widget never holds zero lines. */
  function New(lines: seq<string>): (w: TextArea)
    ensures |w.lines| >= 1
    ensures |lines| > 0 ==> w.lines == lines
    ensures |lines| == 0 ==> w.lines == [""]
    ensures !w.selecting && w.yank == ""
  {
    TextArea(Text.AtLeastOneLine(lines), false, "", InitialView)
  }

  /** `TextArea::default()`: one empty line. */
  function Empty(): (w: TextArea)
    ensures w.lines == [""] && !w.selecting
  {
    New([])
  }

  /** `move_cursor`: only the hidden view state moves. */
  function MoveCursor(lib: TextLib, w: TextArea, m: CursorMove): (r: TextArea)
    ensures r.lines == w.lines && r.selecting == w.selecting && r.yank == w.yank
  {
    w.(view := lib.moveCursor(w, m))
  }

  /** `scroll`: only the hidden view state moves. */
  function Scroll(lib: TextLib, w: TextArea, s: Scrolling): (r: TextArea)
    ensures r.lines == w.lines && r.selecting == w.selecting && r.yank == w.yank
  {
    w.(view := lib.scroll(w, s))
  }

  /** `copy`: may end the selection and replace the yank text, never edits. */
  function Copy(lib: TextLib, w: TextArea): (r: TextArea)
    ensures r.lines == w.lines && r.view == w.view
  {
    var (selecting, yank) := lib.copy(w);
    w.(selecting := selecting, yank := yank)
  }

  function StartSelection(w: TextArea): (r: TextArea)
    ensures r.selecting
    ensures r.lines == w.lines && r.yank == w.yank && r.view == w.view
  {
    w.(selecting := true)
  }

  function CancelSelection(w: TextArea): (r: TextArea)
    ensures !r.selecting
    ensures r.lines == w.lines && r.yank == w.yank && r.view == w.view
  {
    w.(selecting := false)
  }

  /**
    A widget freshly built from `lines` with its cursor moved to the bottom and
    then to the end of that line, as the editor does on every reload.
  */
  function Reload(lib: TextLib, lines: seq<string>): (w: TextArea)
    ensures |lines| > 0 ==> w.lines == lines
    ensures |lines| == 0 ==> w.lines == [""]
    ensures !w.selecting && w.yank == ""
  {
    MoveCursor(lib, MoveCursor(lib, New(lines), Bottom), End)
  }
}
